=== FILE: README.md ===
# Microblog backend — a Dafny model of its business rules

This project models the service layer of a NestJS microblog backend: users sign
up, verify their account and sign in; they write posts and comments (drafts or
live), delete and edit their own content, react to posts and comments with a
kind from a seeded catalogue, and hide their email or name from their public
profile. Signing out puts the bearer token on a blacklist. A guard consults that
blacklist, but only the sign-out route runs it. Every other route accepts a
signed-out token for as long as the token itself is valid.

Every service method is a pure function over an immutable `Store` holding the
tables the services use (users, settings, credentials, posts, comments,
reactables, the reaction catalogue, three reaction tables and the token
blacklist). A table is the sequence of its rows in storage order; Prisma's
`findUnique`, `findMany`, `deleteMany` and `update` become first-match lookup,
filter, filter-and-count and row-wise rewrite (`tables.dfy`). A writing method
returns a `Reply`: an `Ok` value or an `Err(kind, message)`, plus the store after
the call. A failing call returns the store it was given. Reads return only a
`Result`, so they cannot change the store.

Error kinds are the exceptions the services throw (`NotFound`, `Conflict`,
`BadRequest`, `Unauthorized`). `Internal` is the HTTP 500 NestJS answers for an
exception the service does not throw itself. Examples are a Prisma `connect` to a
missing row, an `update` of a missing row, or a property read on `null`.

Row ids are drawn from one counter in the store (`nextId`). `Store.Valid`
collects the consistency the database keeps:
- ids, including reactables' resource ids, are below the counter;
- no row is stored twice, and two rows sharing a primary key are equal, so every primary key picks out one position (`Store.KeysUnique`);
- settings and credentials have one row per user;
- credentials have unique emails and unique usernames;
- each reactable key `(resourceId, resourceType)` occurs once;
- every post has its reactable row;
- every credentials row copies its user's email and username.

Every writing call keeps `Valid` (the `…PreservesValid` lemmas).
`Posts.UpdatePostAsWritten` never writes: its contract returns the store
unchanged. The operations themselves assume nothing about the store.

Modules: `Errors`, `Tables`, `Store`, `Dtos` (request bodies and their
validators), `Reactions`, `Posts`, `Comments`, `Accounts`, `Auth`, `Headers`
(the Authorization header split), `SignInGuard`, `Seed`.

Where the code departs from what its names suggest, the model follows the code:
- `createPost` stores `isLive := isDraft`, as written.
- `postComment` creates no reactable row.
- An unknown reaction kind is `BadRequest` in `reactToPost` but `NotFound` in `createCommentReaction`.
- `getPostComments` lists only live comments. `getUserPosts` and `getUserComments` list drafts as well.

## Model

| member | source | states |
|---|---|---|
| Tables.FilterCounts | src/posts/posts.service.ts:25-27 | a `findMany` lists every matching row exactly as often as the table stores it, and no other row |
| Store.KeysUnique | src/auth/services/auth.service.ts:115-130 | in a consistent store no two positions of a table share a primary key, and no two credentials rows share a user, an email or a username, so each `findUnique` has at most one row to find |
| Reactions.GetReaction | src/reactions/reactions.service.ts:43-51 | succeeds exactly when a catalogue entry has the id, and returns that entry; otherwise NotFound "Reaction not found" |
| Reactions.GetReactions | src/reactions/reactions.service.ts:53-55 | lists the whole catalogue, one entry per row, nothing filtered out and nothing added; it is a read and cannot change the store |
| Reactions.CatalogueAndLookupAgree | src/reactions/reactions.service.ts:43-55 | the list `getReactions` returns and the lookup `getReaction` agree: every listed entry is found by its id, and a lookup succeeds only on a listed id |
| Reactions.CreateCommentReaction | src/reactions/reactions.service.ts:13-26 | an unknown kind fails NotFound with the store unchanged; success happens exactly when kind, user and comment exist, and appends exactly one row linking user, comment and kind; nothing else changes |
| Reactions.CreatePostReaction | src/reactions/reactions.service.ts:28-41 | the same guard and single-row insert, targeting a post |
| Reactions.RepeatedCommentReactionAppends | src/reactions/reactions.service.ts:19-25 | no uniqueness check: repeating a successful comment reaction succeeds again and leaves two identical new rows |
| Reactions.RepeatedPostReactionAppends | src/reactions/reactions.service.ts:34-40 | the same for post reactions |
| Reactions.CreateCommentReactionPreservesValid | src/reactions/reactions.service.ts:19-25 | the insert keeps the store consistent |
| Reactions.CreatePostReactionPreservesValid | src/reactions/reactions.service.ts:34-40 | the insert keeps the store consistent |
| Posts.GetPost | src/posts/posts.service.ts:16-22 | succeeds exactly when a post has the id, returning a stored post with that id; otherwise NotFound "Post not found" |
| Posts.GetUserPosts | src/posts/posts.service.ts:24-32 | returns exactly the posts whose author is the user, drafts included, each as often as it is stored; fails NotFound exactly when there are none |
| Posts.DeletePost | src/posts/posts.service.ts:34-39 | succeeds exactly when a post matches both id and author; it then removes exactly the matching posts, keeps every other post as often as it was stored, and changes no other table; otherwise NotFound with the store unchanged |
| Posts.CreatePost | src/posts/posts.service.ts:41-63 | on success adds exactly one post, with isLive copied from isDraft and a fresh id, plus exactly one reactable keyed by that post; on failure (missing author) adds neither |
| Posts.UpdatePostAsWritten | src/posts/posts.service.ts:65-84 | as written, the same refusals in the same order (missing post NotFound, foreign post the same NotFound, live post with isDraft set Conflict); every call that passes them ends in a 500, because the spread body's isDraft is not a post column; the store never changes |
| Posts.UpdatePost | src/posts/posts.service.ts:65-84 | as intended, the same refusals with the store unchanged; an owned post that is not live, or is updated with isDraft false, is always updated: the post with that id gets the body's title and content, nothing else changes, and the rewritten post is returned |
| Posts.UpdatePostDiscrepancy | src/posts/posts.service.ts:70-83 | the two definitions agree whenever a guard refuses, and differ exactly when the guards pass: 500 as written, the update as intended |
| Posts.UpdatePostKeepsLive | src/posts/posts.service.ts:80-83 | the intended update never writes isLive, so a post that was live is still live after any call; the Conflict guard plays no part in this |
| Posts.UpdatedPostReadBack | src/posts/posts.service.ts:80-83 | the post a successful update returns is what getPost reads afterwards |
| Posts.ReactToPost | src/posts/posts.service.ts:86-118 | an unknown kind fails BadRequest before the post is consulted; then a missing post fails NotFound; failures insert nothing; success appends exactly one reaction linking user, kind and the post's reactable (resourceId, resourceType); on a valid store with kind, post and user present it succeeds |
| Posts.CreatePostPreservesValid | src/posts/posts.service.ts:45-62 | the transaction keeps ids fresh and unique, every post paired with its reactable, and the new reactable key occurs once, since its resource id is above every existing one |
| Posts.DeletePostPreservesValid | src/posts/posts.service.ts:34-39 | deleting keeps the store consistent |
| Posts.UpdatePostPreservesValid | src/posts/posts.service.ts:80-83 | the update keeps ids unique and reactables paired |
| Posts.ReactToPostPreservesValid | src/posts/posts.service.ts:104-117 | the reaction insert keeps the store consistent |
| Comments.PostComment | src/comments/comments.service.ts:20-38 | a missing parent post fails NotFound and adds nothing; otherwise (parent live or not, author present) adds exactly one comment with the given content, author, post and isLive and a fresh id |
| Comments.GetPostComments | src/comments/comments.service.ts:40-52 | a missing post gives NotFound "Post not found"; otherwise returns exactly that post's live comments, each as often as it is stored, and gives NotFound "The post has no comments" when it has none |
| Comments.DeleteComment | src/comments/comments.service.ts:54-61 | removes exactly the comments matching both id and author and keeps every other comment as often as it was stored; a zero count is NotFound with the store unchanged |
| Comments.UpdateComment | src/comments/comments.service.ts:63-84 | missing comment and foreign comment give the same NotFound, then live-to-draft gives Conflict; failures leave the store unchanged; every other call on an owned comment succeeds and changes only content and isLive of that comment |
| Comments.UpdateCommentKeepsLive | src/comments/comments.service.ts:77-83 | with unique ids, a live comment is still live after any successful update |
| Comments.UpdateCommentPublishes | src/comments/comments.service.ts:68-83 | the author can always publish: an owned comment updated with isLive set is accepted, and a later lookup finds it live with the new content, draft before or not |
| Comments.UpdatedCommentReadBack | src/comments/comments.service.ts:80-83 | the comment a successful update returns is what a later lookup reads |
| Comments.ReactToComment | src/comments/comments.service.ts:86-102 | a missing comment fails NotFound before any reaction-kind lookup; otherwise the call is exactly createCommentReaction on that comment |
| Comments.GetUserComments | src/comments/comments.service.ts:104-112 | returns exactly the author's comments, each as often as it is stored; NotFound exactly when there are none |
| Comments.PostCommentPreservesValid | src/comments/comments.service.ts:29-36 | the insert keeps ids fresh and unique |
| Comments.DeleteCommentPreservesValid | src/comments/comments.service.ts:54-61 | deleting keeps the store consistent |
| Comments.ReactToCommentPreservesValid | src/comments/comments.service.ts:86-102 | reacting to a comment keeps the store consistent |
| Comments.UpdateCommentPreservesValid | src/comments/comments.service.ts:80-83 | the update keeps ids unique |
| Accounts.GetUserInfo | src/accounts/accounts.service.ts:10-25 | NotFound unless both settings and user exist; the email is null exactly when showEmail is false and the name null exactly when showName is false; id and username are as stored |
| Accounts.UpdateSettings | src/accounts/accounts.service.ts:27-35 | overwrites both flags of that user's settings with the body's values and leaves every other settings row untouched; a missing row is an unhandled error with the store unchanged |
| Accounts.ShowAllUnredacts | src/accounts/accounts.service.ts:18-35 | after updateSettings with both flags true, getUserInfo returns the stored user unredacted |
| Accounts.SettingsGovernInfo | src/accounts/accounts.service.ts:18-35 | after updateSettings, what getUserInfo shows follows the new flags |
| Accounts.HiddenEmailScenario | src/accounts/accounts.service.ts:18-24 | a user hiding the email and showing the name is returned with the name and a null email |
| Accounts.UpdateSettingsPreservesValid | src/accounts/accounts.service.ts:31-34 | the update keeps one settings row per user and the row's user id below the counter |
| Auth.SignUp | src/auth/services/auth.service.ts:29-61 | fails Conflict with the store unchanged exactly when some user shares the email or the username; otherwise adds exactly one user, its settings with both flags false, and an unverified credentials row holding hash(password) |
| Auth.NewAccountIsPrivate | src/auth/services/auth.service.ts:39-58 | on a valid store, the new user's profile shows neither email nor name |
| Auth.VerifyAccountAsWritten | src/auth/services/auth.service.ts:102-110 | as written, a user id without credentials fails as an unhandled 500, not NotFound |
| Auth.VerifyAccount | src/auth/services/auth.service.ts:102-110 | succeeds exactly when the user has a credentials row, setting isVerified on that user's rows and changing nothing else; otherwise NotFound "User does not exist" |
| Auth.VerifyAccountDiscrepancy | src/auth/services/auth.service.ts:102-110 | the two differ only for a user without credentials: 500 as written, NotFound as intended |
| Auth.ValidSignInSelectsKey | src/auth/services/auth.service.ts:113-117 | for a body passing the validators, the lookup is by email when the email is non-empty, otherwise by the non-empty username |
| Auth.SignIn | src/auth/services/auth.service.ts:112-134 | a body with neither an email nor a username is an unhandled error; otherwise a missing record or a wrong password fails "Wrong credentials" before an unverified account fails "Account is not verified"; a matching, verified record whose user exists succeeds, and the token is sign(username) of that user |
| Auth.SignUpKeepsProfiles | src/auth/services/auth.service.ts:39-59 | signing up leaves every existing user's profile as getUserInfo shows it |
| Auth.SignInBeforeVerification | src/auth/services/auth.service.ts:112-126 | on a consistent store, signing in by email right after sign-up, with the right password, is refused as unverified |
| Auth.SignInAfterVerification | src/auth/services/auth.service.ts:102-133 | on a consistent store, after verifying the new account, the same sign-in returns the signature of its username |
| Auth.SignOut | src/auth/services/auth.service.ts:136-139 | a header with a space has its second space-separated piece appended to the blacklist; without one the insert fails and nothing changes |
| Auth.SignUpPreservesValid | src/auth/services/auth.service.ts:29-59 | the nested create keeps ids fresh and unique; the new credentials copy the new user, whose email and username the Conflict check has made new to both tables |
| Auth.VerifyAccountPreservesValid | src/auth/services/auth.service.ts:103-106 | flipping isVerified keeps one credentials row per user, unique emails and usernames, and each row a copy of its user |
| Auth.VerifyAccountAsWrittenPreservesValid | src/auth/services/auth.service.ts:102-110 | the code as written keeps the store consistent as well |
| Auth.SignOutPreservesValid | src/auth/services/auth.service.ts:137-138 | the blacklist insert keeps the store consistent |
| Headers.Split | src/auth/guards/sign-in.guard.ts:10 | JavaScript split on a space: at least one piece, no piece contains a space, and joining the pieces with spaces gives the header back |
| Headers.SplitJoin | src/auth/guards/sign-in.guard.ts:10 | the other round trip: splitting the join of space-free pieces gives the pieces back |
| Headers.Token | src/auth/guards/sign-in.guard.ts:10 | the second piece is absent exactly when the header has no space, and never contains a space |
| Headers.BearerToken | src/auth/guards/sign-in.guard.ts:10 | for a header "scheme token" the token is exactly what follows the space |
| SignInGuard.CanActivate | src/auth/guards/sign-in.guard.ts:8-16 | the sign-out route's guard: with a token, refuses exactly when the token is blacklisted; with no token the filter is dropped and it refuses exactly when the blacklist is non-empty; it reads the store and cannot change it |
| SignInGuard.SignOutRevokes | src/auth/guards/sign-in.guard.ts:10-14 | after signOut with a header, a second sign-out with the same header is refused by the guard |
| SignInGuard.SignOutRevokesOnlyThatToken | src/auth/guards/sign-in.guard.ts:10-14 | blacklisting one bearer token does not change the verdict on a different token |
| Seed.Upsert | src/prisma/react-references.seed.ts:5-9 | an upsert with an empty update clause leaves an existing entry of that name exactly as it is, otherwise appends one; the name is present afterwards and no entry is removed |
| Seed.SeedReactionReferences | src/prisma/react-references.seed.ts:4-26 | after seeding, like, dislike, love and sad are all present, the old catalogue is a prefix of the new one, and no other table changes |
| Seed.UpsertEntries | src/prisma/react-references.seed.ts:5-9 | per name, an upsert adds one entry only when no entry carries the name |
| Seed.SeedEntries | src/prisma/react-references.seed.ts:5-24 | seeding leaves entries of other names and of already present names exactly as they were, and creates exactly one entry for each missing kind |
| Seed.SeedIdempotent | src/prisma/react-references.seed.ts:5-24 | seeding twice yields the same store as seeding once |
| Seed.UpsertPreservesValid | src/prisma/react-references.seed.ts:5-9 | an upsert keeps catalogue ids fresh and unique |
| Seed.SeedPreservesValid | src/prisma/react-references.seed.ts:4-24 | the seed keeps the store consistent |
| Dtos.ValidTitle | src/posts/dtos/create-post.dto.ts:4-6 | a title passes exactly when it has 1 to 30 characters |
| Dtos.ValidCreatePost | src/posts/dtos/create-post.dto.ts:4-13 | a create-post body passes exactly when the title has 1 to 30 characters and the content 10 to 3000 |
| Dtos.TitleLimit | src/posts/dtos/create-post.dto.ts:5 | 30 characters pass and 31 are rejected |
| Dtos.ValidContent | src/posts/dtos/create-post.dto.ts:8-10 | content passes exactly when it has 10 to 3000 characters |
| Dtos.MatchPassword | src/auth/dtos/sign-up.dto.ts:7-14 | a single left-to-right scan accepts exactly the passwords the pattern accepts: at least 8 characters, a lowercase letter, an uppercase letter, a digit and one of @$!%*?&, and nothing outside those classes |
| Dtos.PasswordAccepted | src/auth/dtos/sign-up.dto.ts:8 | a password with one character of every class passes |
| Dtos.PasswordRejections | src/auth/dtos/sign-up.dto.ts:8 | passwords that are too short, lack a lowercase, uppercase, digit or special character, or contain a space are rejected |
| Dtos.ValidUsername | src/auth/dtos/sign-up.dto.ts:16-17 | a username passes exactly when it has 6 to 15 characters |
| Dtos.ValidName | src/auth/dtos/sign-up.dto.ts:19-20 | a name passes exactly when it is non-empty |
| Dtos.ValidSignUp | src/auth/dtos/sign-up.dto.ts:6-21 | a sign-up body passes the modelled rules exactly when the password matches the pattern, the username has 6 to 15 characters and the name is non-empty |
| Dtos.IdentifierRules | src/auth/dtos/sign-in.dto.ts:4-10 | the two conditional identifier rules pass exactly when at least one of username and email is non-empty |
| Dtos.ValidSignIn | src/auth/dtos/sign-in.dto.ts:3-14 | a sign-in body passes exactly when an identifier is non-empty and the password is non-empty |

## Left out

- Prisma and PostgreSQL: tables are sequences, and `$transaction` is one atomic step. Generated ids are a counter, and string ids are `nat`.
- The schema is not part of this model. Its referential actions are therefore left out: deleting a post leaves its comments, reactable and reactions in place.
- Unique keys are part of `Store.Valid`, not checks inside the inserts. A store that breaks them is not reachable through the services. The database's rejection of a duplicate key is therefore not modelled as an error path.
- The posts' `resourceType` default is taken to be the post discriminator.
- The blacklist's `jwt` column is taken to be required and not unique.
- The verification e-mail (`sendVerificationEmail`, `createEmail`, `getEmailTemplate`, lines 60-100 of src/auth/services/auth.service.ts) is I/O. It is not awaited, so its failure never reaches `signUp`'s caller.
- bcrypt's salted hash, `bcrypt.compare` and `JwtService.sign` are uninterpreted parameters (`hash`, `compare`, `sign`).
- The `IsEmail` format rule on sign-up is library-defined.
- Controllers, modules, dependency injection, bootstrap, the JWT strategy and the user decorator are framework wiring.
- The controller calls `getUserPosts(id, {onlyLive})` and `getDraft`, which the posts service does not define. The accounts tests call `getProfile`, which the accounts service does not define.
- The seed scripts under seeders/ and seeding/ repeat the same upserts with process-exit plumbing.
- Concurrency: each call is one atomic step, and interleaved duplicate reactions are not modelled.
- A request without an Authorization header: the model takes the header as a string. The JWT guard rejects such a request before these handlers run.
- Posts.UpdatePost: the body's keys are spread into the update whole. The validation pipe sets no whitelist, so a body may carry extra keys. An unknown key is one more 500. A real column such as `isLive` or `authorId` would be written and would get past the Conflict guard. Both definitions take the body to be exactly title, content and isDraft.
- Accounts.UpdateSettings: the body is passed to the update whole, for the same reason. An unknown key would make it a 500. A `userId` key would move the settings row to another user. The model takes the body to be exactly the two flags.
- Dtos.ValidTitle: lengths count Unicode code points. Recent class-validator releases also discount variation selectors; that is not modelled. The same holds for Dtos.ValidContent and Dtos.ValidUsername.
- Comments.UpdateCommentKeepsLive: assumes unique comment ids. Without them an update rewrites every row sharing the id, according to the first row's state.

## Findings

| source | as written | input that shows it | evidently intended | confidence | as-written member | corrected member |
|---|---|---|---|---|---|---|
| src/auth/services/auth.service.ts:102-110 | `userAuth.update` runs first, then `if (!updatedAccount)` throws NotFound; Prisma's `update` throws on a missing row, so the test never fires and the caller gets a 500 | `GET /auth/verify?user=<id with no credentials row>`, e.g. user id 7 on an empty store | NotFound "User does not exist" | medium, not executed | Auth.VerifyAccountAsWritten, Auth.VerifyAccountDiscrepancy | Auth.VerifyAccount |
| src/posts/posts.service.ts:80-83 | the update's `data` is the whole spread body, and the body always carries `isDraft`, which is not a column of the post; Prisma Client rejects the unknown argument, so every update that passes the guards is a 500 | the author of draft post 7 sends title "t", content "0123456789", isDraft false | the post's title and content are rewritten and the post is returned | medium, not executed | Posts.UpdatePostAsWritten, Posts.UpdatePostDiscrepancy | Posts.UpdatePost |

=== FILE: accounts.dfy ===
/** The accounts service: the privacy-redacted profile read and the settings
    overwrite. */
module Accounts {
  import opened Errors
  import opened Tables
  import opened Store
  import opened Dtos

  /** The user record as `getUserInfo` returns it: `email` and `name` become
      `null` (`None`) when the settings hide them. */
  datatype UserInfo = UserInfo(id: Id, email: Option<string>, username: string, name: Option<string>)

  /** `getUserInfo`: NotFound unless both the settings and the user exist; the
      email is hidden exactly when `showEmail` is false and the name exactly
      when `showName` is false. */
  function GetUserInfo(s: Store, userId: Id): (r: Result<UserInfo>)
    ensures r.Ok? <==>
              (exists st :: st in s.settings && st.userId == userId) && (exists u :: u in s.users && u.id == userId)
    ensures r.Err? ==> r.error == UserMissing
    ensures r.Ok? ==>
              var u := FindUser(s, userId).value;
              var st := FindSettings(s, userId).value;
              && r.value.id == u.id && r.value.username == u.username
              && (r.value.email.None? <==> !st.showEmail)
              && (r.value.email.Some? ==> r.value.email.value == u.email)
              && (r.value.name.None? <==> !st.showName)
              && (r.value.name.Some? ==> r.value.name.value == u.name)
  {
    var settings := FindSettings(s, userId);
    var user := FindUser(s, userId);
    if settings.None? || user.None? then Err(UserMissing)
    else
      var u := user.value;
      var st := settings.value;
      Ok(UserInfo(u.id,
                  if st.showEmail then Some(u.email) else None,
                  u.username,
                  if st.showName then Some(u.name) else None))
  }

  /** `updateSettings`: both flags of this user's settings overwritten with
      the body's values. Prisma's `update` throws when there is no such row. */
  function UpdateSettings(s: Store, userId: Id, dto: UpdateSettingsDto): (r: Reply<UserSettings>)
    ensures r.result.Ok? <==> exists st :: st in s.settings && st.userId == userId
    ensures r.result.Err? ==> r.Rejected(Internal, s)
    ensures r.result.Ok? ==>
              && r.result.value == UserSettings(userId, dto.showEmail, dto.showName)
              && r.store == s.(settings := r.store.settings)
              && |r.store.settings| == |s.settings|
              && forall i :: 0 <= i < |s.settings| ==>
                   if s.settings[i].userId == userId
                   then r.store.settings[i] == UserSettings(userId, dto.showEmail, dto.showName)
                   else r.store.settings[i] == s.settings[i]
  {
    if FindSettings(s, userId).None? then Reply(Err(InternalServerError), s)
    else
      var settings := UpdateWhere(s.settings, (st: UserSettings) => st.userId == userId,
                                  (st: UserSettings) => st.(showEmail := dto.showEmail, showName := dto.showName));
      Reply(Ok(UserSettings(userId, dto.showEmail, dto.showName)), s.(settings := settings))
  }

  /** After a successful `updateSettings` showing both fields, `getUserInfo`
      returns the stored user unredacted. */
  lemma {:induction false} ShowAllUnredacts(s: Store, userId: Id)
    requires UpdateSettings(s, userId, UpdateSettingsDto(true, true)).result.Ok?
    requires exists u :: u in s.users && u.id == userId
    ensures var t := UpdateSettings(s, userId, UpdateSettingsDto(true, true)).store;
            var u := FindUser(s, userId).value;
            GetUserInfo(t, userId) == Ok(UserInfo(u.id, Some(u.email), u.username, Some(u.name)))
  {
    FindFirstAfterUpdate(s.settings, (st: UserSettings) => st.userId == userId,
                         (st: UserSettings) => st.(showEmail := true, showName := true));
  }

  /** The redaction reads the settings afresh: after `updateSettings`, what
      `getUserInfo` shows follows the new flags, whatever the old ones were. */
  lemma {:induction false} SettingsGovernInfo(s: Store, userId: Id, dto: UpdateSettingsDto)
    requires UpdateSettings(s, userId, dto).result.Ok?
    requires exists u :: u in s.users && u.id == userId
    ensures var info := GetUserInfo(UpdateSettings(s, userId, dto).store, userId);
            && info.Ok?
            && (info.value.email.Some? <==> dto.showEmail)
            && (info.value.name.Some? <==> dto.showName)
  {
    FindFirstAfterUpdate(s.settings, (st: UserSettings) => st.userId == userId,
                         (st: UserSettings) => st.(showEmail := dto.showEmail, showName := dto.showName));
  }

  /** A user who hides the email but shows the name is returned with the
      name and a null email. */
  lemma HiddenEmailScenario()
    ensures var john := User(123, "foo@bar.com", "johndoe", "John Doe");
            var s := Store([john], [UserSettings(123, false, true)], [], [], [], [], [], [], [], [], [], 124);
            GetUserInfo(s, 123) == Ok(UserInfo(123, None, "johndoe", Some("John Doe")))
  {
  }

  lemma UpdateSettingsPreservesValid(s: Store, userId: Id, dto: UpdateSettingsDto)
    requires Valid(s)
    ensures Valid(UpdateSettings(s, userId, dto).store)
  {
    var r := UpdateSettings(s, userId, dto);
    if r.result.Ok? {
      SettingsEditKeepsValid(s, r.store.settings, userId, dto);
    }
  }

  /** A store whose settings of one user are replaced in place stays valid. */
  lemma SettingsEditKeepsValid(s: Store, rows: seq<UserSettings>, userId: Id, dto: UpdateSettingsDto)
    requires Valid(s) && |rows| == |s.settings|
    requires forall i :: 0 <= i < |s.settings| ==>
               if s.settings[i].userId == userId
               then rows[i] == UserSettings(userId, dto.showEmail, dto.showName)
               else rows[i] == s.settings[i]
    ensures Valid(s.(settings := rows))
  {
    SettingsRewritePreservesValid(s.users, s.settings, s.auths, rows, s.nextId);
    ValidWithSettings(s, rows);
  }

  /** Rewriting the settings row by row, keeping each row's user id and
      mapping equal rows to equal rows, keeps the accounts valid. */
  lemma SettingsRewritePreservesValid(users: seq<User>, settings: seq<UserSettings>, auths: seq<UserAuth>,
                                      rows: seq<UserSettings>, n: Id)
    requires AccountsValid(users, settings, auths, n) && |rows| == |settings|
    requires forall i :: 0 <= i < |rows| ==> rows[i].userId == settings[i].userId
    requires forall i, j :: 0 <= i < |rows| && 0 <= j < |rows| && settings[i] == settings[j] ==> rows[i] == rows[j]
    ensures AccountsValid(users, rows, auths, n)
  {
    forall i, j | 0 <= i < j < |rows|
      ensures rows[i] != rows[j]
    {
      assert settings[i] in settings && settings[j] in settings && settings[i] != settings[j];
      assert settings[i].userId != settings[j].userId;
    }
    forall x | x in rows
      ensures x.userId < n
    {
      var i :| 0 <= i < |rows| && rows[i] == x;
      assert settings[i] in settings;
    }
    forall x, y | x in rows && y in rows && x.userId == y.userId
      ensures x == y
    {
      var i :| 0 <= i < |rows| && rows[i] == x;
      var j :| 0 <= j < |rows| && rows[j] == y;
      assert settings[i] in settings && settings[j] in settings;
    }
  }
}

=== FILE: auth.dfy ===
/** The authentication service: sign-up, account verification, sign-in and
    sign-out. Password hashing (bcrypt), hash comparison and token signing
    (JwtService) are parameters; the verification e-mail is not modelled. */
module Auth {
  import opened Errors
  import opened Tables
  import opened Store
  import opened Dtos
  import Headers
  import Accounts

  const Taken := Error(Conflict, "User with email or username already exists")
  const WrongCredentials := Error(Unauthorized, "Wrong credentials")
  const NotVerified := Error(Unauthorized, "Account is not verified")

  /** `signUp`: Conflict when any user already has the email or the username;
      otherwise one user with hidden-by-default settings and an unverified
      credentials record holding the hashed password, created together. */
  function SignUp(s: Store, dto: SignUpDto, hash: string -> string): (r: Reply<()>)
    ensures r.result.Err? <==> exists u :: u in s.users && (u.email == dto.email || u.username == dto.username)
    ensures r.result.Err? ==> r.Rejected(Conflict, s) && r.result.error == Taken
    ensures r.result.Ok? ==>
              var id := s.nextId;
              && r.store.users == s.users + [User(id, dto.email, dto.username, dto.name)]
              && r.store.settings == s.settings + [UserSettings(id, false, false)]
              && r.store.auths == s.auths + [UserAuth(id, dto.email, dto.username, hash(dto.password), false)]
              && r.store == s.(users := r.store.users, settings := r.store.settings,
                               auths := r.store.auths, nextId := id + 1)
  {
    var existing := Filter(s.users, (u: User) => u.email == dto.email || u.username == dto.username);
    if |existing| != 0 then
      assert existing[0] in existing;
      Reply(Err(Taken), s)
    else
      var id := s.nextId;
      Reply(Ok(()), s.(users := s.users + [User(id, dto.email, dto.username, dto.name)],
                       settings := s.settings + [UserSettings(id, false, false)],
                       auths := s.auths + [UserAuth(id, dto.email, dto.username, hash(dto.password), false)],
                       nextId := id + 1))
  }

  /** The rows `verifyAccount` and `signIn` address by user id. */
  function FindAuthOf(s: Store, userId: Id): (r: Option<UserAuth>)
    ensures r.Some? <==> exists a :: a in s.auths && a.userId == userId
  {
    FindFirst(s.auths, (a: UserAuth) => a.userId == userId)
  }

  function Verified(a: UserAuth): UserAuth {
    a.(isVerified := true)
  }

  /** `verifyAccount` as written: Prisma's `update` throws when no credentials
      row has this user id, so the caller gets a 500; the `!updatedAccount`
      test after it can never fire. */
  function VerifyAccountAsWritten(s: Store, userId: Id): (r: Reply<()>)
    ensures r.result.Ok? <==> exists a :: a in s.auths && a.userId == userId
    ensures r.result.Err? ==> r.Rejected(Internal, s)
  {
    if FindAuthOf(s, userId).None? then Reply(Err(InternalServerError), s)
    else Reply(Ok(()), s.(auths := UpdateWhere(s.auths, (a: UserAuth) => a.userId == userId, Verified)))
  }

  /** `verifyAccount` as its NotFound branch intends: a missing record is
      NotFound; otherwise that user's record becomes verified and nothing else
      changes. */
  function VerifyAccount(s: Store, userId: Id): (r: Reply<()>)
    ensures r.result.Ok? <==> exists a :: a in s.auths && a.userId == userId
    ensures r.result.Err? ==> r.Rejected(NotFound, s) && r.result.error == UserMissing
    ensures r.result.Ok? ==>
              && r.store == s.(auths := r.store.auths)
              && |r.store.auths| == |s.auths|
              && forall i :: 0 <= i < |s.auths| ==>
                   if s.auths[i].userId == userId
                   then r.store.auths[i] == s.auths[i].(isVerified := true)
                   else r.store.auths[i] == s.auths[i]
  {
    if FindAuthOf(s, userId).None? then Reply(Err(UserMissing), s)
    else Reply(Ok(()), s.(auths := UpdateWhere(s.auths, (a: UserAuth) => a.userId == userId, Verified)))
  }

  /** The discrepancy: for a user id with no credentials record the code as
      written answers 500 where the intended answer is NotFound; on every
      other input the two agree. */
  lemma VerifyAccountDiscrepancy(s: Store, userId: Id)
    ensures (forall a :: a in s.auths ==> a.userId != userId) ==>
              && VerifyAccountAsWritten(s, userId).result == Err(InternalServerError)
              && VerifyAccount(s, userId).result == Err(UserMissing)
    ensures (exists a :: a in s.auths && a.userId == userId) ==>
              VerifyAccountAsWritten(s, userId) == VerifyAccount(s, userId)
  {
  }

  /** The unique column `signIn` looks the credentials up by. */
  datatype Lookup = ByEmail(email: string) | ByUsername(username: string)

  /** `email ? { email } : { username }`. An absent username with a falsy
      email leaves `findUnique` without a unique criterion, which Prisma
      rejects: `None`. */
  function SignInKey(dto: SignInDto): Option<Lookup> {
    if Truthy(dto.email) then Some(ByEmail(dto.email.value))
    else if dto.username.Some? then Some(ByUsername(dto.username.value))
    else None
  }

  predicate KeyMatches(a: UserAuth, key: Lookup) {
    match key
    case ByEmail(e) => a.email == e
    case ByUsername(n) => a.username == n
  }

  function FindAuth(s: Store, key: Lookup): (r: Option<UserAuth>)
    ensures r.Some? <==> exists a :: a in s.auths && KeyMatches(a, key)
    ensures r.Some? ==> r.value in s.auths && KeyMatches(r.value, key)
  {
    FindFirst(s.auths, (a: UserAuth) => KeyMatches(a, key))
  }

  /** A body that passes the sign-in validators always yields a lookup: by
      email when the email is non-empty, otherwise by the (then non-empty)
      username. */
  lemma ValidSignInSelectsKey(dto: SignInDto)
    requires ValidSignIn(dto)
    ensures Truthy(dto.email) ==> SignInKey(dto) == Some(ByEmail(dto.email.value))
    ensures !Truthy(dto.email) ==> SignInKey(dto) == Some(ByUsername(dto.username.value)) && dto.username.value != ""
  {
  }

  /** `signIn`: a missing record and a wrong password are the same
      Unauthorized, checked before the unverified-account Unauthorized; the
      token is the signature of the user's username. */
  function SignIn(s: Store, dto: SignInDto, compare: (string, string) -> bool, sign: string -> string): (r: Result<string>)
    ensures SignInKey(dto).None? ==> r == Err(InternalServerError)
    ensures SignInKey(dto).Some? ==>
              var cred := FindAuth(s, SignInKey(dto).value);
              && (cred.None? || !compare(dto.password, cred.value.password) ==> r == Err(WrongCredentials))
              && (cred.Some? && compare(dto.password, cred.value.password) && !cred.value.isVerified ==>
                    r == Err(NotVerified))
              && (r.Ok? ==>
                    && cred.Some? && compare(dto.password, cred.value.password) && cred.value.isVerified
                    && exists u :: u in s.users && u.id == cred.value.userId && r.value == sign(u.username))
              && (cred.Some? && compare(dto.password, cred.value.password) && cred.value.isVerified
                    && (exists u :: u in s.users && u.id == cred.value.userId) ==>
                    r.Ok?)
  {
    match SignInKey(dto)
    case None => Err(InternalServerError)
    case Some(key) =>
      match FindAuth(s, key)
      case None => Err(WrongCredentials)
      case Some(cred) =>
        if !compare(dto.password, cred.password) then Err(WrongCredentials)
        else if !cred.isVerified then Err(NotVerified)
        else match FindUser(s, cred.userId)
          case None => Err(InternalServerError)
          case Some(user) => Ok(sign(user.username))
  }

  /** `signOut`: the header's second space-separated piece is appended to the
      blacklist. Without a space the piece is `undefined` and the insert of the
      required `jwt` column is rejected. */
  function SignOut(s: Store, authorization: string): (r: Reply<()>)
    ensures ' ' !in authorization ==> r.Rejected(Internal, s)
    ensures ' ' in authorization ==>
              && r.result.Ok?
              && r.store == s.(blacklist := s.blacklist + [Headers.Token(authorization).value])
  {
    match Headers.Token(authorization)
    case None => Reply(Err(InternalServerError), s)
    case Some(token) => Reply(Ok(()), s.(blacklist := s.blacklist + [token]))
  }

  // ---- Account lifecycle ----

  /** A fresh account shows neither its email nor its name. */
  lemma {:induction false} NewAccountIsPrivate(s: Store, dto: SignUpDto, hash: string -> string)
    requires Valid(s)
    requires SignUp(s, dto, hash).result.Ok?
    ensures Accounts.GetUserInfo(SignUp(s, dto, hash).store, s.nextId)
              == Ok(Accounts.UserInfo(s.nextId, None, dto.username, None))
  {
    var t := SignUp(s, dto, hash).store;
    FindFirstAppended(s.users, (u: User) => u.id == s.nextId, User(s.nextId, dto.email, dto.username, dto.name));
    FindFirstAppended(s.settings, (st: UserSettings) => st.userId == s.nextId, UserSettings(s.nextId, false, false));
  }

  /** Signing up leaves the profile of every existing user as it was: the new
      rows go behind the ones `getUserInfo` finds. */
  lemma {:induction false} SignUpKeepsProfiles(s: Store, dto: SignUpDto, hash: string -> string, userId: Id)
    requires Accounts.GetUserInfo(s, userId).Ok?
    ensures Accounts.GetUserInfo(SignUp(s, dto, hash).store, userId) == Accounts.GetUserInfo(s, userId)
  {
    var r := SignUp(s, dto, hash);
    if r.result.Ok? {
      var id := s.nextId;
      FindFirstKeptByAppend(s.users, (u: User) => u.id == userId, User(id, dto.email, dto.username, dto.name));
      FindFirstKeptByAppend(s.settings, (st: UserSettings) => st.userId == userId, UserSettings(id, false, false));
    }
  }

  /** On a consistent store no credentials row carries an email or a
      username that no user has, so a successful sign-up's email and username
      are new to the credentials table too. */
  lemma {:induction false} SignUpKeysAreNew(s: Store, dto: SignUpDto, hash: string -> string)
    requires Valid(s)
    requires SignUp(s, dto, hash).result.Ok?
    ensures forall a :: a in s.auths ==> a.email != dto.email && a.username != dto.username
  {
    forall a | a in s.auths
      ensures a.email != dto.email && a.username != dto.username
    {
      var u :| u in s.users && u.id == a.userId && u.email == a.email && u.username == a.username;
    }
  }

  /** Signing in by email right after signing up, with the right password, is
      refused as unverified. */
  lemma {:induction false} SignInBeforeVerification(s: Store, dto: SignUpDto, hash: string -> string,
                                                    compare: (string, string) -> bool, sign: string -> string)
    requires Valid(s)
    requires SignUp(s, dto, hash).result.Ok?
    requires dto.email != "" && compare(dto.password, hash(dto.password))
    ensures SignIn(SignUp(s, dto, hash).store, SignInDto(None, Some(dto.email), dto.password), compare, sign)
              == Err(NotVerified)
  {
    SignUpKeysAreNew(s, dto, hash);
    var cred := UserAuth(s.nextId, dto.email, dto.username, hash(dto.password), false);
    FindFirstAppended(s.auths, (a: UserAuth) => KeyMatches(a, ByEmail(dto.email)), cred);
  }

  /** ... and once the account is verified, the same sign-in returns the
      signature of the new user's username. */
  lemma {:induction false} SignInAfterVerification(s: Store, dto: SignUpDto, hash: string -> string,
                                                   compare: (string, string) -> bool, sign: string -> string)
    requires Valid(s)
    requires SignUp(s, dto, hash).result.Ok?
    requires dto.email != "" && compare(dto.password, hash(dto.password))
    ensures var t := VerifyAccount(SignUp(s, dto, hash).store, s.nextId).store;
            SignIn(t, SignInDto(None, Some(dto.email), dto.password), compare, sign) == Ok(sign(dto.username))
  {
    SignUpKeysAreNew(s, dto, hash);
    SignInAfterFreshVerification(s, dto, hash, compare, sign);
  }

  /** The sign-in steps after verification, from the two facts they use: the
      new id and the new email are not in use. */
  lemma {:induction false} SignInAfterFreshVerification(s: Store, dto: SignUpDto, hash: string -> string,
                                                        compare: (string, string) -> bool, sign: string -> string)
    requires SignUp(s, dto, hash).result.Ok?
    requires dto.email != "" && compare(dto.password, hash(dto.password))
    requires forall u :: u in s.users ==> u.id != s.nextId
    requires forall a :: a in s.auths ==> a.email != dto.email && a.userId != s.nextId
    ensures var t := VerifyAccount(SignUp(s, dto, hash).store, s.nextId).store;
            SignIn(t, SignInDto(None, Some(dto.email), dto.password), compare, sign) == Ok(sign(dto.username))
  {
    NewAccountLookups(s, dto, hash);
  }

  /** After sign-up and verification, the new email finds the new verified
      credentials and the new id finds the new user. */
  lemma {:induction false} NewAccountLookups(s: Store, dto: SignUpDto, hash: string -> string)
    requires SignUp(s, dto, hash).result.Ok?
    requires forall u :: u in s.users ==> u.id != s.nextId
    requires forall a :: a in s.auths ==> a.email != dto.email && a.userId != s.nextId
    ensures var t := VerifyAccount(SignUp(s, dto, hash).store, s.nextId).store;
            && FindAuth(t, ByEmail(dto.email)) == Some(UserAuth(s.nextId, dto.email, dto.username, hash(dto.password), true))
            && FindUser(t, s.nextId) == Some(User(s.nextId, dto.email, dto.username, dto.name))
  {
    var t := VerifyAccount(SignUp(s, dto, hash).store, s.nextId).store;
    VerifiedNewAccount(s, dto, hash);
    NewCredentialsFound(t.auths, s.auths, UserAuth(s.nextId, dto.email, dto.username, hash(dto.password), true));
    FindFirstAppended(s.users, (u: User) => u.id == s.nextId, User(s.nextId, dto.email, dto.username, dto.name));
  }

  /** Credentials whose old rows keep emails different from the new row's,
      followed by the new row: a lookup by that email finds the new row. */
  lemma {:induction false} NewCredentialsFound(rows: seq<UserAuth>, prior: seq<UserAuth>, cred: UserAuth)
    requires |rows| == |prior| + 1 && rows[|prior|] == cred
    requires forall i :: 0 <= i < |prior| ==> rows[i].email == prior[i].email
    requires forall a :: a in prior ==> a.email != cred.email
    ensures FindFirst(rows, (a: UserAuth) => KeyMatches(a, ByEmail(cred.email))) == Some(cred)
  {
    assert rows == rows[..|prior|] + [cred];
    assert forall i :: 0 <= i < |prior| ==> prior[i] in prior;
    FindFirstAppended(rows[..|prior|], (a: UserAuth) => KeyMatches(a, ByEmail(cred.email)), cred);
  }

  /** What sign-up followed by verification leaves in the two tables sign-in
      reads: the old credentials, each with its email, then the new verified
      credentials; the old users, then the new user. */
  lemma {:induction false} VerifiedNewAccount(s: Store, dto: SignUpDto, hash: string -> string)
    requires SignUp(s, dto, hash).result.Ok?
    requires forall a :: a in s.auths ==> a.userId != s.nextId
    ensures var t := VerifyAccount(SignUp(s, dto, hash).store, s.nextId).store;
            && |t.auths| == |s.auths| + 1
            && (forall i :: 0 <= i < |s.auths| ==> t.auths[i].email == s.auths[i].email)
            && t.auths[|s.auths|] == UserAuth(s.nextId, dto.email, dto.username, hash(dto.password), true)
            && t.users == s.users + [User(s.nextId, dto.email, dto.username, dto.name)]
  {
    var id := s.nextId;
    var t1 := SignUp(s, dto, hash).store;
    assert t1.auths[|s.auths|].userId == id;
  }

  // ---- The store invariant is kept by every writing call. ----

  /** The new user, its settings and its credentials take the fresh id, and the
      credentials copy the new user's email and username, which no row has yet. */
  lemma {:induction false} SignUpPreservesValid(s: Store, dto: SignUpDto, hash: string -> string)
    requires Valid(s)
    ensures Valid(SignUp(s, dto, hash).store)
  {
    var r := SignUp(s, dto, hash);
    if r.result.Ok? {
      var t := r.store;
      var id := s.nextId;
      AccountsValidAfterSignUp(s.users, s.settings, s.auths, id, User(id, dto.email, dto.username, dto.name),
                               UserSettings(id, false, false),
                               UserAuth(id, dto.email, dto.username, hash(dto.password), false));
      PostsValidGrows(s.posts, s.reactables, s.nextId, t.nextId);
      CommentsValidGrows(s.comments, s.nextId, t.nextId);
      CatalogueValidGrows(s.references, s.nextId, t.nextId);
    }
  }

  /** Appending a user with the fresh id and an email and username no user
      has, its settings, and credentials copying it keeps the accounts valid. */
  lemma {:induction false} AccountsValidAfterSignUp(users: seq<User>, settings: seq<UserSettings>, auths: seq<UserAuth>,
                                                    n: Id, user: User, st: UserSettings, cred: UserAuth)
    requires AccountsValid(users, settings, auths, n)
    requires user.id == n && st.userId == n && cred.userId == n
    requires cred.email == user.email && cred.username == user.username
    requires forall u :: u in users ==> u.email != user.email && u.username != user.username
    ensures AccountsValid(users + [user], settings + [st], auths + [cred], n + 1)
  {
    var us, sts := users + [user], settings + [st];
    forall u, v | u in us && v in us && u.id == v.id
      ensures u == v
    {
    }
    forall x, y | x in sts && y in sts && x.userId == y.userId
      ensures x == y
    {
    }
    CredentialKeysAfterSignUp(users, settings, auths, n, user, cred);
    CredentialsMirrorAfterSignUp(users, auths, user, cred);
  }

  /** The new credentials clash with none of the existing ones on user id,
      email or username. */
  lemma {:induction false} CredentialKeysAfterSignUp(users: seq<User>, settings: seq<UserSettings>, auths: seq<UserAuth>,
                                                     n: Id, user: User, cred: UserAuth)
    requires AccountsValid(users, settings, auths, n)
    requires cred.userId == n && cred.email == user.email && cred.username == user.username
    requires forall u :: u in users ==> u.email != user.email && u.username != user.username
    ensures forall a, b :: a in auths + [cred] && b in auths + [cred] && a.userId == b.userId ==> a == b
    ensures forall a, b :: a in auths + [cred] && b in auths + [cred] && a.email == b.email ==> a == b
    ensures forall a, b :: a in auths + [cred] && b in auths + [cred] && a.username == b.username ==> a == b
  {
    var cs := auths + [cred];
    forall a | a in auths
      ensures a.email != cred.email && a.username != cred.username
    {
      var u :| u in users && u.id == a.userId && u.email == a.email && u.username == a.username;
    }
    forall a, b | a in cs && b in cs && a.userId == b.userId
      ensures a == b
    {
    }
    forall a, b | a in cs && b in cs && a.email == b.email
      ensures a == b
    {
    }
    forall a, b | a in cs && b in cs && a.username == b.username
      ensures a == b
    {
    }
  }

  /** Credentials copying a newly appended user keep mirroring the users. */
  lemma {:induction false} CredentialsMirrorAfterSignUp(users: seq<User>, auths: seq<UserAuth>, user: User, cred: UserAuth)
    requires forall a :: a in auths ==>
               exists u :: u in users && u.id == a.userId && u.email == a.email && u.username == a.username
    requires cred.userId == user.id && cred.email == user.email && cred.username == user.username
    ensures forall a :: a in auths + [cred] ==>
              exists u :: u in users + [user] && u.id == a.userId && u.email == a.email && u.username == a.username
  {
    forall a | a in auths + [cred]
      ensures exists u :: u in users + [user] && u.id == a.userId && u.email == a.email && u.username == a.username
    {
      if a == cred {
        assert user in users + [user];
      } else {
        var u :| u in users && u.id == a.userId && u.email == a.email && u.username == a.username;
        assert u in users + [user];
      }
    }
  }

  /** Rewriting the credentials row by row, keeping each row's user id, email
      and username and mapping equal rows to equal rows, keeps the accounts
      valid. */
  lemma CredentialRewritePreservesValid(users: seq<User>, settings: seq<UserSettings>, auths: seq<UserAuth>,
                                        rows: seq<UserAuth>, n: Id)
    requires AccountsValid(users, settings, auths, n) && |rows| == |auths|
    requires forall i :: 0 <= i < |rows| ==>
               rows[i].userId == auths[i].userId && rows[i].email == auths[i].email
               && rows[i].username == auths[i].username
    requires forall i, j :: 0 <= i < |rows| && 0 <= j < |rows| && auths[i] == auths[j] ==> rows[i] == rows[j]
    ensures AccountsValid(users, settings, rows, n)
  {
    forall i, j | 0 <= i < j < |rows|
      ensures rows[i] != rows[j]
    {
      assert auths[i] in auths && auths[j] in auths && auths[i] != auths[j];
      assert auths[i].userId != auths[j].userId;
    }
    forall a | a in rows
      ensures a.userId < n
      ensures exists u :: u in users && u.id == a.userId && u.email == a.email && u.username == a.username
    {
      var i :| 0 <= i < |rows| && rows[i] == a;
      assert auths[i] in auths;
    }
    forall a, b | a in rows && b in rows && (a.userId == b.userId || a.email == b.email || a.username == b.username)
      ensures a == b
    {
      var i :| 0 <= i < |rows| && rows[i] == a;
      var j :| 0 <= j < |rows| && rows[j] == b;
      assert auths[i] in auths && auths[j] in auths;
    }
  }

  lemma VerifyAccountPreservesValid(s: Store, userId: Id)
    requires Valid(s)
    ensures Valid(VerifyAccount(s, userId).store)
  {
    var r := VerifyAccount(s, userId);
    if r.result.Ok? {
      VerificationKeepsValid(s, r.store.auths, userId);
    }
  }

  /** A store whose credentials of one user are marked verified stays valid. */
  lemma VerificationKeepsValid(s: Store, rows: seq<UserAuth>, userId: Id)
    requires Valid(s) && |rows| == |s.auths|
    requires forall i :: 0 <= i < |s.auths| ==>
               if s.auths[i].userId == userId
               then rows[i] == s.auths[i].(isVerified := true)
               else rows[i] == s.auths[i]
    ensures Valid(s.(auths := rows))
  {
    CredentialRewritePreservesValid(s.users, s.settings, s.auths, rows, s.nextId);
    ValidWithAuths(s, rows);
  }

  lemma VerifyAccountAsWrittenPreservesValid(s: Store, userId: Id)
    requires Valid(s)
    ensures Valid(VerifyAccountAsWritten(s, userId).store)
  {
    VerifyAccountDiscrepancy(s, userId);
    VerifyAccountPreservesValid(s, userId);
  }

  lemma SignOutPreservesValid(s: Store, authorization: string)
    requires Valid(s)
    ensures Valid(SignOut(s, authorization).store)
  {
  }
}

=== FILE: comments.dfy ===
/** The comments service: posting under an existing post, the live-only
    listing, author-scoped delete, the guarded update and reacting to a
    comment through the reactions service. */
module Comments {
  import opened Errors
  import opened Tables
  import opened Store
  import opened Dtos
  import Reactions

  const NoComments := Error(NotFound, "The post has no comments")
  const CommentMissing := Error(NotFound, "The comment does not exist")
  const CommentNotFound := Error(NotFound, "Comment not found")
  const AlreadyPublished := Error(Conflict, "The comment is already published")
  const UserHasNoComments := Error(NotFound, "User has no comments")

  /** `postComment`: the parent post must exist (live or not); then one
      comment row is inserted. Connecting a missing author throws. */
  function PostComment(s: Store, dto: PostCommentDto, userId: Id, postId: Id): (r: Reply<Comment>)
    ensures (forall p :: p in s.posts ==> p.id != postId) ==>
              r.Rejected(NotFound, s) && r.result.error == PostNotFound
    ensures r.result.Ok? <==>
              (exists p :: p in s.posts && p.id == postId) && (exists u :: u in s.users && u.id == userId)
    ensures r.result.Err? ==> r.store == s
    ensures r.result.Ok? ==>
              var c := r.result.value;
              && c.content == dto.content && c.authorId == userId
              && c.postId == postId && c.isLive == dto.isLive
              && c.id == s.nextId
              && r.store == s.(comments := s.comments + [c], nextId := s.nextId + 1)
    ensures r.result.Ok? && Valid(s) ==> forall d :: d in s.comments ==> d.id != r.result.value.id
  {
    if FindPost(s, postId).None? then Reply(Err(PostNotFound), s)
    else if FindUser(s, userId).None? then Reply(Err(InternalServerError), s)
    else
      var c := Comment(s.nextId, dto.content, postId, userId, dto.isLive);
      Reply(Ok(c), s.(comments := s.comments + [c], nextId := s.nextId + 1))
  }

  /** The rows `getPostComments` lists: the post's published comments. */
  predicate LiveOn(c: Comment, postId: Id) {
    c.postId == postId && c.isLive
  }

  /** `getPostComments`: NotFound for a missing post, then the post's live
      comments, and NotFound again when there are none. */
  function GetPostComments(s: Store, postId: Id): (r: Result<seq<Comment>>)
    ensures (forall p :: p in s.posts ==> p.id != postId) ==> r == Err(PostNotFound)
    ensures r.Ok? ==> forall c :: c in r.value <==> c in s.comments && LiveOn(c, postId)
    ensures r.Ok? ==> forall c :: multiset(r.value)[c] == if LiveOn(c, postId) then multiset(s.comments)[c] else 0
    ensures r.Ok? <==>
              (exists p :: p in s.posts && p.id == postId) && (exists c :: c in s.comments && LiveOn(c, postId))
    ensures (exists p :: p in s.posts && p.id == postId)
              && (forall c :: c in s.comments ==> !LiveOn(c, postId)) ==>
              r == Err(NoComments)
  {
    if FindPost(s, postId).None? then Err(PostNotFound)
    else
      var live := Filter(s.comments, (c: Comment) => LiveOn(c, postId));
      FilterCounts(s.comments, (c: Comment) => LiveOn(c, postId));
      if |live| == 0 then Err(NoComments)
      else
        assert live[0] in live;
        Ok(live)
  }

  predicate OwnedBy(c: Comment, commentId: Id, userId: Id) {
    c.id == commentId && c.authorId == userId
  }

  /** `deleteComment`: delete-many filtered by id and author; a count of zero
      is NotFound. */
  function DeleteComment(s: Store, commentId: Id, userId: Id): (r: Reply<()>)
    ensures r.result.Ok? <==> exists c :: c in s.comments && OwnedBy(c, commentId, userId)
    ensures r.result.Err? ==> r.Rejected(NotFound, s) && r.result.error == CommentMissing
    ensures r.result.Ok? ==>
              && r.store == s.(comments := r.store.comments)
              && (forall c :: c in r.store.comments <==> c in s.comments && !OwnedBy(c, commentId, userId))
              && forall c :: multiset(r.store.comments)[c] == if OwnedBy(c, commentId, userId) then 0 else multiset(s.comments)[c]
  {
    var kept := Filter(s.comments, (c: Comment) => !OwnedBy(c, commentId, userId));
    FilterCounts(s.comments, (c: Comment) => !OwnedBy(c, commentId, userId));
    var count := |s.comments| - |kept|;
    if count == 0 then Reply(Err(CommentMissing), s)
    else Reply(Ok(()), s.(comments := kept))
  }

  /** What `updateComment` writes: content and the publish flag. */
  function Edited(c: Comment, dto: PostCommentDto): Comment {
    c.(content := dto.content, isLive := dto.isLive)
  }

  /** `updateComment`: missing comment, then foreign comment (both the same
      NotFound), then un-publishing a live comment (Conflict); otherwise the
      comment's content and publish flag are rewritten. */
  function UpdateComment(s: Store, dto: PostCommentDto, commentId: Id, userId: Id): (r: Reply<Comment>)
    ensures (forall c :: c in s.comments ==> c.id != commentId) ==>
              r.Rejected(NotFound, s) && r.result.error == CommentNotFound
    ensures FindComment(s, commentId).Some? && FindComment(s, commentId).value.authorId != userId ==>
              r.Rejected(NotFound, s) && r.result.error == CommentNotFound
    ensures FindComment(s, commentId).Some? && FindComment(s, commentId).value.authorId == userId
              && FindComment(s, commentId).value.isLive && !dto.isLive ==>
              r.Rejected(Conflict, s) && r.result.error == AlreadyPublished
    ensures FindComment(s, commentId).Some? && FindComment(s, commentId).value.authorId == userId
              && !(FindComment(s, commentId).value.isLive && !dto.isLive) ==>
              r.result.Ok?
    ensures r.result.Err? ==> r.store == s
    ensures r.result.Ok? ==>
              var prior := FindComment(s, commentId).value;
              && prior.authorId == userId && !(prior.isLive && !dto.isLive)
              && r.result.value == Comment(prior.id, dto.content, prior.postId, prior.authorId, dto.isLive)
              && r.store == s.(comments := r.store.comments)
              && |r.store.comments| == |s.comments|
              && forall i :: 0 <= i < |s.comments| ==>
                   if s.comments[i].id == commentId
                   then r.store.comments[i] == s.comments[i].(content := dto.content, isLive := dto.isLive)
                   else r.store.comments[i] == s.comments[i]
  {
    match FindComment(s, commentId)
    case None => Reply(Err(CommentNotFound), s)
    case Some(comment) =>
      if comment.authorId != userId then Reply(Err(CommentNotFound), s)
      else if comment.isLive && !dto.isLive then Reply(Err(AlreadyPublished), s)
      else
        var comments := UpdateWhere(s.comments, (c: Comment) => c.id == comment.id, (c: Comment) => Edited(c, dto));
        Reply(Ok(Edited(comment, dto)), s.(comments := comments))
  }

  /** Publishing is one way: under unique ids, a comment that was live is
      still live after any successful update (a draft may go live, as
      `UpdateCommentPublishes` shows). */
  lemma {:induction false} UpdateCommentKeepsLive(s: Store, dto: PostCommentDto, commentId: Id, userId: Id, i: nat)
    requires UniqueCommentIds(s.comments)
    requires i < |s.comments| && s.comments[i].isLive
    requires UpdateComment(s, dto, commentId, userId).result.Ok?
    ensures var r := UpdateComment(s, dto, commentId, userId);
            |r.store.comments| == |s.comments| && r.store.comments[i].isLive
  {
    var prior := FindComment(s, commentId).value;
    if s.comments[i].id == commentId {
      assert s.comments[i] == prior;
    }
  }

  /** The author may publish a comment: updating an owned comment with the
      publish flag set always succeeds, and a later lookup finds it live with
      the new content, whether it was a draft before or not. */
  lemma UpdateCommentPublishes(s: Store, dto: PostCommentDto, commentId: Id, userId: Id)
    requires FindComment(s, commentId).Some? && FindComment(s, commentId).value.authorId == userId
    requires dto.isLive
    ensures var r := UpdateComment(s, dto, commentId, userId);
            && r.result.Ok?
            && FindComment(r.store, commentId).Some?
            && FindComment(r.store, commentId).value.isLive
            && FindComment(r.store, commentId).value.content == dto.content
  {
    UpdatedCommentReadBack(s, dto, commentId, userId);
  }

  /** What a successful update returns is what a later lookup of the comment
      reads. */
  lemma {:induction false} UpdatedCommentReadBack(s: Store, dto: PostCommentDto, commentId: Id, userId: Id)
    requires UpdateComment(s, dto, commentId, userId).result.Ok?
    ensures var r := UpdateComment(s, dto, commentId, userId);
            FindComment(r.store, commentId) == Some(r.result.value)
  {
    var comment := FindComment(s, commentId).value;
    FindFirstAfterUpdate(s.comments, (c: Comment) => c.id == comment.id, (c: Comment) => Edited(c, dto));
  }

  /** `reactToComment`: a missing comment is NotFound before the reaction kind
      is looked up; otherwise `createCommentReaction` runs on that comment. */
  function ReactToComment(s: Store, reactionId: Id, userId: Id, commentId: Id): (r: Reply<CommentReaction>)
    ensures (forall c :: c in s.comments ==> c.id != commentId) ==>
              r.Rejected(NotFound, s) && r.result.error == CommentNotFound
    ensures (exists c :: c in s.comments && c.id == commentId) ==>
              r == Reactions.CreateCommentReaction(s, commentId, userId, reactionId)
  {
    match FindComment(s, commentId)
    case None => Reply(Err(CommentNotFound), s)
    case Some(comment) => Reactions.CreateCommentReaction(s, comment.id, userId, reactionId)
  }

  /** `getUserComments`: every comment of the author, drafts included; having
      none is NotFound. */
  function GetUserComments(s: Store, userId: Id): (r: Result<seq<Comment>>)
    ensures r.Ok? ==> forall c :: c in r.value <==> c in s.comments && c.authorId == userId
    ensures r.Ok? ==> forall c :: multiset(r.value)[c] == if c.authorId == userId then multiset(s.comments)[c] else 0
    ensures r.Err? <==> forall c :: c in s.comments ==> c.authorId != userId
    ensures r.Err? ==> r.error == UserHasNoComments
  {
    var mine := Filter(s.comments, (c: Comment) => c.authorId == userId);
    FilterCounts(s.comments, (c: Comment) => c.authorId == userId);
    if |mine| == 0 then Err(UserHasNoComments)
    else
      assert mine[0] in mine;
      Ok(mine)
  }

  // ---- The store invariant is kept by every writing call. ----

  lemma PostCommentPreservesValid(s: Store, dto: PostCommentDto, userId: Id, postId: Id)
    requires Valid(s)
    ensures Valid(PostComment(s, dto, userId, postId).store)
  {
    var r := PostComment(s, dto, userId, postId);
    if r.result.Ok? {
      var t := r.store;
      CommentsValidAfterAppend(s.comments, s.nextId, r.result.value);
      AccountsValidGrows(s.users, s.settings, s.auths, s.nextId, t.nextId);
      PostsValidGrows(s.posts, s.reactables, s.nextId, t.nextId);
      CatalogueValidGrows(s.references, s.nextId, t.nextId);
    }
  }

  /** A comment with the fresh id, appended, keeps the comments valid. */
  lemma CommentsValidAfterAppend(comments: seq<Comment>, n: Id, c: Comment)
    requires CommentsValid(comments, n) && c.id == n
    ensures CommentsValid(comments + [c], n + 1)
  {
  }

  lemma DeleteCommentPreservesValid(s: Store, commentId: Id, userId: Id)
    requires Valid(s)
    ensures Valid(DeleteComment(s, commentId, userId).store)
  {
    FilterKeepsDistinct(s.comments, (c: Comment) => !OwnedBy(c, commentId, userId));
  }

  lemma ReactToCommentPreservesValid(s: Store, reactionId: Id, userId: Id, commentId: Id)
    requires Valid(s)
    ensures Valid(ReactToComment(s, reactionId, userId, commentId).store)
  {
    Reactions.CreateCommentReactionPreservesValid(s, commentId, userId, reactionId);
  }

  lemma UpdateCommentPreservesValid(s: Store, dto: PostCommentDto, commentId: Id, userId: Id)
    requires Valid(s)
    ensures Valid(UpdateComment(s, dto, commentId, userId).store)
  {
    var r := UpdateComment(s, dto, commentId, userId);
    if r.result.Ok? {
      CommentEditKeepsValid(s, r.store.comments, commentId, dto);
    }
  }

  /** A store whose comments with one id are edited in place stays valid. */
  lemma CommentEditKeepsValid(s: Store, cs: seq<Comment>, commentId: Id, dto: PostCommentDto)
    requires Valid(s) && |cs| == |s.comments|
    requires forall i :: 0 <= i < |s.comments| ==>
               if s.comments[i].id == commentId
               then cs[i] == s.comments[i].(content := dto.content, isLive := dto.isLive)
               else cs[i] == s.comments[i]
    ensures Valid(s.(comments := cs))
  {
    RowwiseRewritePreservesValid(s.comments, cs, s.nextId);
    ValidWithComments(s, cs);
  }

  /** Rewriting the comments row by row, keeping each row's id and mapping
      equal rows to equal rows, keeps the comments valid. */
  lemma RowwiseRewritePreservesValid(comments: seq<Comment>, cs: seq<Comment>, n: Id)
    requires CommentsValid(comments, n) && |cs| == |comments|
    requires forall i :: 0 <= i < |cs| ==> cs[i].id == comments[i].id
    requires forall i, j :: 0 <= i < |cs| && 0 <= j < |cs| && comments[i] == comments[j] ==> cs[i] == cs[j]
    ensures CommentsValid(cs, n)
  {
    forall i, j | 0 <= i < j < |cs|
      ensures cs[i] != cs[j]
    {
      assert comments[i] in comments && comments[j] in comments && comments[i] != comments[j];
      assert comments[i].id != comments[j].id;
    }
    forall q | q in cs
      ensures q.id < n
    {
      var i :| 0 <= i < |cs| && cs[i] == q;
      assert comments[i] in comments;
    }
    forall c, d | c in cs && d in cs && c.id == d.id
      ensures c == d
    {
      var i :| 0 <= i < |cs| && cs[i] == c;
      var j :| 0 <= j < |cs| && cs[j] == d;
      assert comments[i] in comments && comments[j] in comments;
    }
  }
}

=== FILE: dtos.dfy ===
/** The request bodies the controllers accept, and the class-validator rules
    the global ValidationPipe applies to them before any service runs.

    Optional JSON fields are `Option<string>`; a field the validators demand
    to be a boolean is a `bool`. The `IsEmail` format rule on sign-up is not
    modelled.
 */
module Dtos {
  import opened Errors

  datatype CreatePostDto = CreatePostDto(title: string, content: string, isDraft: bool)

  datatype PostCommentDto = PostCommentDto(content: string, isLive: bool)

  datatype UpdateSettingsDto = UpdateSettingsDto(showEmail: bool, showName: bool)

  datatype SignUpDto = SignUpDto(email: string, password: string, username: string, name: string)

  datatype SignInDto = SignInDto(username: Option<string>, email: Option<string>, password: string)

  // The class-validator decorators used below, on strings (lengths count code points).

  predicate IsNotEmpty(v: string) {
    v != ""
  }

  predicate MaxLength(v: string, max: nat) {
    |v| <= max
  }

  predicate Length(v: string, min: nat, max: nat) {
    min <= |v| <= max
  }

  /** JavaScript truthiness of an optional string field. `IsNotEmpty` on an
      optional field rejects `undefined` and `''`, so it is the same test. */
  predicate Truthy(v: Option<string>) {
    v.Some? && IsNotEmpty(v.value)
  }

  // ---- CreatePostDto ----

  /** `@IsNotEmpty() @MaxLength(30)` on the title. */
  function ValidTitle(title: string): (r: bool)
    ensures r <==> 1 <= |title| <= 30
  {
    IsNotEmpty(title) && MaxLength(title, 30)
  }

  /** `@IsNotEmpty() @Length(10, 3000)` on the content; the length rule
      already excludes the empty string. */
  function ValidContent(content: string): (r: bool)
    ensures r <==> 10 <= |content| <= 3000
  {
    IsNotEmpty(content) && Length(content, 10, 3000)
  }

  /** Every rule of the create-post body (`isDraft` is a boolean by type). */
  function ValidCreatePost(dto: CreatePostDto): (r: bool)
    ensures r <==> 1 <= |dto.title| <= 30 && 10 <= |dto.content| <= 3000
  {
    ValidTitle(dto.title) && ValidContent(dto.content)
  }

  /** The title limit is inclusive: 30 characters pass and 31 do not. */
  lemma TitleLimit(t30: string, t31: string)
    requires |t30| == 30 && |t31| == 31
    ensures ValidTitle(t30) && !ValidTitle(t31)
  {
  }

  // ---- SignUpDto ----

  predicate IsLower(c: char) { 'a' <= c <= 'z' }
  predicate IsUpper(c: char) { 'A' <= c <= 'Z' }
  predicate IsDigit(c: char) { '0' <= c <= '9' }
  predicate IsSpecial(c: char) { c in "@$!%*?&" }

  /** The character class `[A-Za-z\d@$!%*?&]`. */
  predicate IsPasswordChar(c: char) {
    IsLower(c) || IsUpper(c) || IsDigit(c) || IsSpecial(c)
  }

  predicate HasLower(p: string) { exists i :: 0 <= i < |p| && IsLower(p[i]) }
  predicate HasUpper(p: string) { exists i :: 0 <= i < |p| && IsUpper(p[i]) }
  predicate HasDigit(p: string) { exists i :: 0 <= i < |p| && IsDigit(p[i]) }
  predicate HasSpecial(p: string) { exists i :: 0 <= i < |p| && IsSpecial(p[i]) }

  /** The meaning of the sign-up password pattern
      `^(?=.*[a-z])(?=.*[A-Z])(?=.*\d)(?=.*[@$!%*?&])[A-Za-z\d@$!%*?&]{8,}$`:
      four lookaheads, each demanding one character of a class somewhere, and
      a body of at least eight characters all drawn from the allowed class. */
  predicate PasswordPattern(p: string) {
    && HasLower(p) && HasUpper(p) && HasDigit(p) && HasSpecial(p)
    && 8 <= |p|
    && forall i :: 0 <= i < |p| ==> IsPasswordChar(p[i])
  }

  /** Matching the password pattern in one left-to-right scan, collecting the
      four lookahead flags and the character-class check as it goes. */
  method MatchPassword(p: string) returns (ok: bool)
    ensures ok <==> PasswordPattern(p)
  {
    var lower, upper, digit, special, allowed := false, false, false, false, true;
    var i := 0;
    while i < |p|
      invariant 0 <= i <= |p|
      invariant lower <==> exists j :: 0 <= j < i && IsLower(p[j])
      invariant upper <==> exists j :: 0 <= j < i && IsUpper(p[j])
      invariant digit <==> exists j :: 0 <= j < i && IsDigit(p[j])
      invariant special <==> exists j :: 0 <= j < i && IsSpecial(p[j])
      invariant allowed <==> forall j :: 0 <= j < i ==> IsPasswordChar(p[j])
    {
      var c := p[i];
      lower := lower || IsLower(c);
      upper := upper || IsUpper(c);
      digit := digit || IsDigit(c);
      special := special || IsSpecial(c);
      allowed := allowed && IsPasswordChar(c);
      i := i + 1;
    }
    ok := 8 <= |p| && lower && upper && digit && special && allowed;
  }

  /** A password with one character of every class passes the pattern. */
  lemma PasswordAccepted()
    ensures PasswordPattern("Passw0rd!")
  {
    var p := "Passw0rd!";
    assert IsUpper(p[0]) && IsLower(p[1]) && IsDigit(p[5]) && IsSpecial(p[8]);
  }

  /** Passwords each failing exactly one rule of the pattern are rejected:
      length, lowercase, uppercase, digit, special character, alphabet. */
  lemma PasswordRejections()
    ensures !PasswordPattern("Pas0rd!")
    ensures !PasswordPattern("PASSW0RD!")
    ensures !PasswordPattern("passw0rd!")
    ensures !PasswordPattern("Password!")
    ensures !PasswordPattern("Passw0rd1")
    ensures !PasswordPattern("Pass w0rd!")
  {
    NoneOf("PASSW0RD!", IsLower);
    NoneOf("passw0rd!", IsUpper);
    NoneOf("Password!", IsDigit);
    NoneOf("Passw0rd1", IsSpecial);
    assert !IsPasswordChar("Pass w0rd!"[4]);
  }

  /** Helper for the rejections: a character class absent from every position. */
  lemma NoneOf(p: string, cls: char -> bool)
    requires forall i :: 0 <= i < |p| ==> !cls(p[i])
    ensures !exists i :: 0 <= i < |p| && cls(p[i])
  {
  }

  /** `@Length(6, 15)` on the username. */
  function ValidUsername(username: string): (r: bool)
    ensures r <==> 6 <= |username| <= 15
  {
    Length(username, 6, 15)
  }

  /** `@IsNotEmpty()` on the name. */
  function ValidName(name: string): (r: bool)
    ensures r <==> |name| > 0
  {
    IsNotEmpty(name)
  }

  /** Every modelled rule of the sign-up body (the email format is not). */
  function ValidSignUp(dto: SignUpDto): (r: bool)
    ensures r <==> PasswordPattern(dto.password) && 6 <= |dto.username| <= 15 && dto.name != ""
  {
    PasswordPattern(dto.password) && ValidUsername(dto.username) && ValidName(dto.name)
  }

  // ---- SignInDto ----

  /** `@ValidateIf((o) => !o.email || o.username) @IsNotEmpty()` on username. */
  predicate UsernameRule(dto: SignInDto) {
    (!Truthy(dto.email) || Truthy(dto.username)) ==> Truthy(dto.username)
  }

  /** `@ValidateIf((o) => !o.username || o.email) @IsNotEmpty()` on email. */
  predicate EmailRule(dto: SignInDto) {
    (!Truthy(dto.username) || Truthy(dto.email)) ==> Truthy(dto.email)
  }

  /** The two conditional rules together accept exactly the bodies that carry
      at least one non-empty identifier. */
  lemma IdentifierRules(dto: SignInDto)
    ensures UsernameRule(dto) && EmailRule(dto) <==> Truthy(dto.username) || Truthy(dto.email)
  {
  }

  /** Every rule of the sign-in body. */
  function ValidSignIn(dto: SignInDto): (r: bool)
    ensures r <==> (Truthy(dto.username) || Truthy(dto.email)) && dto.password != ""
  {
    UsernameRule(dto) && EmailRule(dto) && IsNotEmpty(dto.password)
  }
}

=== FILE: errors.dfy ===
/** Failure values shared by every service of the microblog backend.

    The services signal failure by throwing a NestJS HTTP exception; the model
    returns an `Err` carrying the exception's kind and message instead. An
    exception the service does not throw itself (a failed foreign-key
    `connect`, an `update` of a row that does not exist, a property read on
    `null`) reaches the framework's catch-all filter and becomes an HTTP 500:
    that is the kind `Internal`.
 */
module Errors {

  datatype Option<+T> = None | Some(value: T)

  /** The exception classes the services throw, plus the framework's 500. */
  datatype Kind = NotFound | Conflict | BadRequest | Unauthorized | Internal

  datatype Error = Error(kind: Kind, message: string)

  datatype Result<+T> = Ok(value: T) | Err(error: Error) {

    /** True when this is a failure of the given kind. */
    predicate FailedWith(k: Kind) {
      Err? && error.kind == k
    }
  }

  /** The body NestJS sends for an exception it does not recognise. */
  const InternalServerError := Error(Internal, "Internal server error")

  // Messages more than one service throws.

  /** Thrown by the posts and the comments service for a missing post. */
  const PostNotFound := Error(NotFound, "Post not found")

  /** Thrown by the accounts and the authentication service for a missing user. */
  const UserMissing := Error(NotFound, "User does not exist")
}

=== FILE: guard.dfy ===
/** The guard the sign-out route runs after the JWT guard: a request whose
    bearer token has already been blacklisted by sign-out is refused. No other
    route runs it, so a blacklisted token is still accepted everywhere else. */
module SignInGuard {
  import opened Tables
  import opened Store
  import opened Headers
  import Auth

  /** `canActivate`: the blacklist rows whose `jwt` equals the header's token;
      any such row refuses the request. With no token the filter is
      `{ jwt: undefined }`, which Prisma drops, so then every row matches. */
  function CanActivate(s: Store, authorization: string): (r: bool)
    ensures ' ' in authorization ==> (r <==> Token(authorization).value !in s.blacklist)
    ensures ' ' !in authorization ==> (r <==> |s.blacklist| == 0)
  {
    var token := Token(authorization);
    var hits := Filter(s.blacklist, (jwt: string) => token.None? || jwt == token.value);
    hits == []
  }

  /** After signing out with a header, a second sign-out with the same header
      is refused by this guard. */
  lemma SignOutRevokes(s: Store, authorization: string)
    requires Auth.SignOut(s, authorization).result.Ok?
    ensures !CanActivate(Auth.SignOut(s, authorization).store, authorization)
  {
  }

  /** Revoking one bearer token does not lock out a different one. */
  lemma SignOutRevokesOnlyThatToken(s: Store, token: string, other: string)
    requires ' ' !in token && ' ' !in other && token != other
    ensures CanActivate(Auth.SignOut(s, "Bearer " + token).store, "Bearer " + other)
              == CanActivate(s, "Bearer " + other)
  {
    BearerToken("Bearer", token);
    BearerToken("Bearer", other);
    assert "Bearer " + token == "Bearer" + " " + token;
    assert "Bearer " + other == "Bearer" + " " + other;
  }
}

=== FILE: headers.dfy ===
/** The Authorization header as the sign-out handler and the sign-in guard
    read it: `authorization.split(' ')[1]`. */
module Headers {
  import opened Errors

  /** JavaScript's `h.split(' ')`: the pieces between single spaces, empty
      pieces included; a string without spaces is one piece. */
  function Split(h: string): (parts: seq<string>)
    ensures |parts| >= 1
    ensures forall i :: 0 <= i < |parts| ==> ' ' !in parts[i]
    ensures Join(parts) == h
    decreases |h|
  {
    if |h| == 0 then [""]
    else
      var rest := Split(h[1..]);
      if h[0] == ' ' then
        assert ([""] + rest)[1..] == rest;
        [""] + rest
      else
        var parts := [[h[0]] + rest[0]] + rest[1..];
        assert parts[1..] == rest[1..];
        assert h == [h[0]] + h[1..];
        parts
  }

  /** `parts.join(' ')`, the inverse of `Split`. */
  function Join(parts: seq<string>): string
    requires |parts| >= 1
    decreases |parts|
  {
    if |parts| == 1 then parts[0] else parts[0] + " " + Join(parts[1..])
  }

  /** A word without spaces splits to itself. */
  lemma {:induction false} SplitWord(w: string)
    requires ' ' !in w
    ensures Split(w) == [w]
    decreases |w|
  {
    if |w| > 0 {
      assert ' ' !in w[1..];
      SplitWord(w[1..]);
      assert [w[0]] + w[1..] == w;
    }
  }

  /** A word followed by a space splits off as the first piece. */
  lemma {:induction false} SplitCons(w: string, t: string)
    requires ' ' !in w
    ensures Split(w + " " + t) == [w] + Split(t)
    decreases |w|
  {
    var h := w + " " + t;
    if |w| == 0 {
      assert h == " " + t;
      assert h[1..] == t;
    } else {
      assert h[1..] == w[1..] + " " + t;
      assert ' ' !in w[1..];
      SplitCons(w[1..], t);
      assert [w[0]] + w[1..] == w;
    }
  }

  /** The other round trip: joining space-free pieces and splitting again
      gives the pieces back. */
  lemma {:induction false} SplitJoin(parts: seq<string>)
    requires |parts| >= 1
    requires forall i :: 0 <= i < |parts| ==> ' ' !in parts[i]
    ensures Split(Join(parts)) == parts
    decreases |parts|
  {
    if |parts| == 1 {
      SplitWord(parts[0]);
    } else {
      SplitJoin(parts[1..]);
      SplitCons(parts[0], Join(parts[1..]));
      assert [parts[0]] + parts[1..] == parts;
    }
  }

  /** `authorization.split(' ')[1]`: the second piece, or `undefined` (None)
      when the header has no space. */
  function Token(authorization: string): (r: Option<string>)
    ensures r.None? <==> ' ' !in authorization
    ensures r.Some? ==> ' ' !in r.value
  {
    var parts := Split(authorization);
    if |parts| >= 2 then Some(parts[1])
    else
      assert authorization == parts[0];
      None
  }

  /** For a header `<scheme> <token>` the token is exactly what follows the
      space. */
  lemma BearerToken(scheme: string, token: string)
    requires ' ' !in scheme && ' ' !in token
    ensures Token(scheme + " " + token) == Some(token)
  {
    SplitJoin([scheme, token]);
    assert Join([scheme, token]) == scheme + " " + token;
  }
}

=== FILE: posts.dfy ===
/** The posts service: reads, author-scoped delete, the post-plus-reactable
    creation transaction, the guarded update and reacting to a post. */
module Posts {
  import opened Errors
  import opened Tables
  import opened Store
  import opened Dtos

  const NoPosts := Error(NotFound, "User has no posts created")
  const AlreadyPublished := Error(Conflict, "The post is already published")
  const InvalidReaction := Error(BadRequest, "Invalid reaction")

  /** `getPost`: the stored post with this id. */
  function GetPost(s: Store, postId: Id): (r: Result<Post>)
    ensures r.Ok? <==> exists p :: p in s.posts && p.id == postId
    ensures r.Ok? ==> r.value in s.posts && r.value.id == postId
    ensures r.Err? ==> r.error == PostNotFound
  {
    match FindPost(s, postId)
    case None => Err(PostNotFound)
    case Some(p) => Ok(p)
  }

  /** `getUserPosts`: every post of the author, drafts included; having none
      is NotFound. */
  function GetUserPosts(s: Store, userId: Id): (r: Result<seq<Post>>)
    ensures r.Ok? ==> forall p :: p in r.value <==> p in s.posts && p.authorId == userId
    ensures r.Ok? ==> forall p :: multiset(r.value)[p] == if p.authorId == userId then multiset(s.posts)[p] else 0
    ensures r.Err? <==> forall p :: p in s.posts ==> p.authorId != userId
    ensures r.Err? ==> r.error == NoPosts
  {
    var mine := Filter(s.posts, (p: Post) => p.authorId == userId);
    FilterCounts(s.posts, (p: Post) => p.authorId == userId);
    if |mine| == 0 then Err(NoPosts)
    else
      assert mine[0] in mine;
      Ok(mine)
  }

  /** The rows `deletePost`'s `deleteMany` matches: this id AND this author. */
  predicate OwnedBy(p: Post, postId: Id, userId: Id) {
    p.id == postId && p.authorId == userId
  }

  /** `deletePost`: delete-many filtered by id and author; a count of zero
      (no such post, or someone else's) is NotFound. */
  function DeletePost(s: Store, userId: Id, postId: Id): (r: Reply<()>)
    ensures r.result.Ok? <==> exists p :: p in s.posts && OwnedBy(p, postId, userId)
    ensures r.result.Err? ==> r.Rejected(NotFound, s) && r.result.error == PostNotFound
    ensures r.result.Ok? ==>
              && r.store == s.(posts := r.store.posts)
              && (forall p :: p in r.store.posts <==> p in s.posts && !OwnedBy(p, postId, userId))
              && forall p :: multiset(r.store.posts)[p] == if OwnedBy(p, postId, userId) then 0 else multiset(s.posts)[p]
  {
    var kept := Filter(s.posts, (p: Post) => !OwnedBy(p, postId, userId));
    FilterCounts(s.posts, (p: Post) => !OwnedBy(p, postId, userId));
    var count := |s.posts| - |kept|;
    if count == 0 then Reply(Err(PostNotFound), s)
    else Reply(Ok(()), s.(posts := kept))
  }

  /** `createPost`: one transaction creating the post and its reactable. The
      new post's `isLive` is the body's `isDraft`, as the source assigns it.
      Connecting a missing author throws and rolls both inserts back. */
  function CreatePost(s: Store, dto: CreatePostDto, userId: Id): (r: Reply<Post>)
    ensures r.result.Ok? <==> exists u :: u in s.users && u.id == userId
    ensures r.result.Err? ==> r.Rejected(Internal, s)
    ensures r.result.Ok? ==>
              var p := r.result.value;
              && p.title == dto.title && p.content == dto.content
              && p.authorId == userId && p.isLive == dto.isDraft
              && p.id == s.nextId
              && r.store == s.(posts := s.posts + [p],
                               reactables := s.reactables + [Reactable(p.id, p.resourceType)],
                               nextId := s.nextId + 1)
    ensures r.result.Ok? && Valid(s) ==> forall q :: q in s.posts ==> q.id != r.result.value.id
  {
    if FindUser(s, userId).None? then Reply(Err(InternalServerError), s)
    else
      var p := Post(s.nextId, dto.title, dto.content, userId, dto.isDraft, PostResource);
      Reply(Ok(p), s.(posts := s.posts + [p],
                      reactables := s.reactables + [Reactable(p.id, p.resourceType)],
                      nextId := s.nextId + 1))
  }

  /** The refusals `updatePost` checks before it writes, in order: a missing
      post, then someone else's post (the same NotFound), then a live post
      whose body sets `isDraft` (Conflict). */
  function UpdatePostRefusal(s: Store, dto: CreatePostDto, postId: Id, userId: Id): Option<Error> {
    match FindPost(s, postId)
    case None => Some(PostNotFound)
    case Some(post) =>
      if post.authorId != userId then Some(PostNotFound)
      else if post.isLive && dto.isDraft then Some(AlreadyPublished)
      else None
  }

  /** `updatePost` as written: once the guards pass, the update's `data` is the
      whole spread body. Its `isDraft` key names no column of the post, and
      Prisma Client rejects an unknown argument before any query runs, so
      every call that passes the guards ends in a 500 and writes nothing. */
  function UpdatePostAsWritten(s: Store, dto: CreatePostDto, postId: Id, userId: Id): (r: Reply<Post>)
    ensures r.result.Err? && r.store == s
    ensures (forall p :: p in s.posts ==> p.id != postId) ==> r.result.error == PostNotFound
    ensures FindPost(s, postId).Some? && FindPost(s, postId).value.authorId != userId ==>
              r.result.error == PostNotFound
    ensures FindPost(s, postId).Some? && FindPost(s, postId).value.authorId == userId ==>
              if FindPost(s, postId).value.isLive && dto.isDraft
              then r.result.error == AlreadyPublished
              else r.result.error == InternalServerError
  {
    match UpdatePostRefusal(s, dto, postId, userId)
    case Some(e) => Reply(Err(e), s)
    case None => Reply(Err(InternalServerError), s)
  }

  /** What `updatePost` is evidently meant to write: the body's title and
      content. The body's `isDraft` only feeds the guard, so the publish flag
      is kept. */
  function Edited(p: Post, dto: CreatePostDto): Post {
    p.(title := dto.title, content := dto.content)
  }

  /** `updatePost` as intended: the same refusals, with the store unchanged;
      otherwise the post with that id gets the body's title and content and
      is returned. */
  function UpdatePost(s: Store, dto: CreatePostDto, postId: Id, userId: Id): (r: Reply<Post>)
    ensures (forall p :: p in s.posts ==> p.id != postId) ==>
              r.Rejected(NotFound, s) && r.result.error == PostNotFound
    ensures FindPost(s, postId).Some? && FindPost(s, postId).value.authorId != userId ==>
              r.Rejected(NotFound, s) && r.result.error == PostNotFound
    ensures FindPost(s, postId).Some? && FindPost(s, postId).value.authorId == userId
              && FindPost(s, postId).value.isLive && dto.isDraft ==>
              r.Rejected(Conflict, s) && r.result.error == AlreadyPublished
    ensures FindPost(s, postId).Some? && FindPost(s, postId).value.authorId == userId
              && !(FindPost(s, postId).value.isLive && dto.isDraft) ==>
              r.result.Ok?
    ensures r.result.Err? ==> r.store == s
    ensures r.result.Ok? ==>
              var prior := FindPost(s, postId).value;
              && prior.authorId == userId && !(prior.isLive && dto.isDraft)
              && r.result.value == prior.(title := dto.title, content := dto.content)
              && r.store == s.(posts := r.store.posts)
              && |r.store.posts| == |s.posts|
              && forall i :: 0 <= i < |s.posts| ==>
                   if s.posts[i].id == postId
                   then r.store.posts[i] == s.posts[i].(title := dto.title, content := dto.content)
                   else r.store.posts[i] == s.posts[i]
  {
    match UpdatePostRefusal(s, dto, postId, userId)
    case Some(e) => Reply(Err(e), s)
    case None =>
      var post := FindPost(s, postId).value;
      var posts := UpdateWhere(s.posts, (p: Post) => p.id == post.id, (p: Post) => Edited(p, dto));
      Reply(Ok(Edited(post, dto)), s.(posts := posts))
  }

  /** The discrepancy: the two definitions give the same answer whenever a
      guard refuses, and differ exactly when the guards pass, where the code
      as written answers 500 and writes nothing. */
  lemma UpdatePostDiscrepancy(s: Store, dto: CreatePostDto, postId: Id, userId: Id)
    ensures UpdatePost(s, dto, postId, userId).result.Err? ==>
              UpdatePostAsWritten(s, dto, postId, userId) == UpdatePost(s, dto, postId, userId)
    ensures UpdatePost(s, dto, postId, userId).result.Ok? ==>
              UpdatePostAsWritten(s, dto, postId, userId).Rejected(Internal, s)
  {
  }

  /** The intended update never writes `isLive`, so no post's publish flag
      changes under any call; the Conflict guard plays no part in this. */
  lemma {:induction false} UpdatePostKeepsLive(s: Store, dto: CreatePostDto, postId: Id, userId: Id, i: nat)
    requires i < |s.posts| && s.posts[i].isLive
    ensures var r := UpdatePost(s, dto, postId, userId);
            |r.store.posts| == |s.posts| && r.store.posts[i].isLive
  {
  }

  /** What a successful update returns is what a later `getPost` reads. */
  lemma {:induction false} UpdatedPostReadBack(s: Store, dto: CreatePostDto, postId: Id, userId: Id)
    requires UpdatePost(s, dto, postId, userId).result.Ok?
    ensures var r := UpdatePost(s, dto, postId, userId);
            GetPost(r.store, postId) == Ok(r.result.value)
  {
    var post := FindPost(s, postId).value;
    var p := (q: Post) => q.id == post.id;
    var f := (q: Post) => Edited(q, dto);
    FindFirstAfterUpdate(s.posts, p, f);
  }

  /** `reactToPost`: an unknown reaction kind is a BadRequest before the post
      is read; a missing post is NotFound; then one reaction row is inserted
      through the post's reactable. A post without its reactable (a null
      `post.reactable`) or a missing user throws. */
  function ReactToPost(s: Store, reactionId: Id, userId: Id, postId: Id): (r: Reply<Reaction>)
    ensures (forall rr :: rr in s.references ==> rr.id != reactionId) ==>
              r.Rejected(BadRequest, s) && r.result.error == InvalidReaction
    ensures (exists rr :: rr in s.references && rr.id == reactionId)
              && (forall p :: p in s.posts ==> p.id != postId) ==>
              r.Rejected(NotFound, s) && r.result.error == PostNotFound
    ensures r.result.Err? ==> r.store == s
    ensures r.result.Ok? ==>
              var post := FindPost(s, postId).value;
              && r.result.value == Reaction(userId, post.id, post.resourceType, reactionId)
              && Reactable(post.id, post.resourceType) in s.reactables
              && r.store == s.(reactions := s.reactions + [r.result.value])
    ensures Valid(s) && (exists rr :: rr in s.references && rr.id == reactionId)
              && (exists p :: p in s.posts && p.id == postId)
              && (exists u :: u in s.users && u.id == userId) ==>
              r.result.Ok?
  {
    if FindReference(s, reactionId).None? then Reply(Err(InvalidReaction), s)
    else match FindPost(s, postId)
      case None => Reply(Err(PostNotFound), s)
      case Some(post) =>
        match FindReactable(s, post)
        case None => Reply(Err(InternalServerError), s)
        case Some(ra) =>
          if FindUser(s, userId).None? then Reply(Err(InternalServerError), s)
          else
            var row := Reaction(userId, ra.resourceId, ra.resourceType, reactionId);
            Reply(Ok(row), s.(reactions := s.reactions + [row]))
  }

  // ---- The store invariant is kept by every writing call. ----

  lemma CreatePostPreservesValid(s: Store, dto: CreatePostDto, userId: Id)
    requires Valid(s)
    ensures Valid(CreatePost(s, dto, userId).store)
  {
    var r := CreatePost(s, dto, userId);
    if r.result.Ok? {
      var t := r.store;
      PostsValidAfterCreate(s.posts, s.reactables, s.nextId, r.result.value);
      AccountsValidGrows(s.users, s.settings, s.auths, s.nextId, t.nextId);
      CommentsValidGrows(s.comments, s.nextId, t.nextId);
      CatalogueValidGrows(s.references, s.nextId, t.nextId);
    }
  }

  /** A post with the fresh id, appended with its reactable, keeps the posts
      valid: the new reactable's resource id is above every existing one. */
  lemma {:induction false} PostsValidAfterCreate(posts: seq<Post>, reactables: seq<Reactable>, n: Id, p: Post)
    requires PostsValid(posts, reactables, n) && p.id == n
    ensures PostsValid(posts + [p], reactables + [Reactable(p.id, p.resourceType)], n + 1)
  {
    var ps, ras := posts + [p], reactables + [Reactable(p.id, p.resourceType)];
    forall i, j | 0 <= i < j < |ras|
      ensures ras[i] != ras[j]
    {
      if j == |reactables| {
        assert reactables[i] in reactables;
      }
    }
    forall q, q' | q in ps && q' in ps && q.id == q'.id
      ensures q == q'
    {
    }
  }

  lemma DeletePostPreservesValid(s: Store, userId: Id, postId: Id)
    requires Valid(s)
    ensures Valid(DeletePost(s, userId, postId).store)
  {
    FilterKeepsDistinct(s.posts, (p: Post) => !OwnedBy(p, postId, userId));
  }

  lemma UpdatePostPreservesValid(s: Store, dto: CreatePostDto, postId: Id, userId: Id)
    requires Valid(s)
    ensures Valid(UpdatePost(s, dto, postId, userId).store)
  {
    var r := UpdatePost(s, dto, postId, userId);
    if r.result.Ok? {
      PostEditKeepsValid(s, r.store.posts, postId, dto);
    }
  }

  /** A store whose posts with one id are edited in place stays valid. */
  lemma PostEditKeepsValid(s: Store, ps: seq<Post>, postId: Id, dto: CreatePostDto)
    requires Valid(s) && |ps| == |s.posts|
    requires forall i :: 0 <= i < |s.posts| ==>
               if s.posts[i].id == postId
               then ps[i] == s.posts[i].(title := dto.title, content := dto.content)
               else ps[i] == s.posts[i]
    ensures Valid(s.(posts := ps))
  {
    RowwiseRewritePreservesValid(s.posts, ps, s.reactables, s.nextId);
    ValidWithPosts(s, ps);
  }

  /** Rewriting the posts row by row, keeping each row's id and resource type
      and mapping equal rows to equal rows, keeps the posts valid. */
  lemma RowwiseRewritePreservesValid(posts: seq<Post>, ps: seq<Post>, reactables: seq<Reactable>, n: Id)
    requires PostsValid(posts, reactables, n) && |ps| == |posts|
    requires forall i :: 0 <= i < |ps| ==> ps[i].id == posts[i].id && ps[i].resourceType == posts[i].resourceType
    requires forall i, j :: 0 <= i < |ps| && 0 <= j < |ps| && posts[i] == posts[j] ==> ps[i] == ps[j]
    ensures PostsValid(ps, reactables, n)
  {
    forall i, j | 0 <= i < j < |ps|
      ensures ps[i] != ps[j]
    {
      assert posts[i] in posts && posts[j] in posts && posts[i] != posts[j];
      assert posts[i].id != posts[j].id;
    }
    forall q | q in ps
      ensures q.id < n && Reactable(q.id, q.resourceType) in reactables
    {
      var i :| 0 <= i < |ps| && ps[i] == q;
      assert posts[i] in posts;
    }
    forall p, q | p in ps && q in ps && p.id == q.id
      ensures p == q
    {
      var i :| 0 <= i < |ps| && ps[i] == p;
      var j :| 0 <= j < |ps| && ps[j] == q;
      assert posts[i] in posts && posts[j] in posts;
    }
  }

  lemma ReactToPostPreservesValid(s: Store, reactionId: Id, userId: Id, postId: Id)
    requires Valid(s)
    ensures Valid(ReactToPost(s, reactionId, userId, postId).store)
  {
  }
}

=== FILE: reactions.dfy ===
/** The reactions service: the reaction catalogue lookups and the two
    direct-foreign-key reaction inserts used by comments and posts. */
module Reactions {
  import opened Errors
  import opened Store

  const ReactionNotFound := Error(NotFound, "Reaction not found")

  /** `getReaction`: the catalogue entry with this id. */
  function GetReaction(s: Store, reactionId: Id): (r: Result<ReactionReference>)
    ensures r.Ok? <==> exists rr :: rr in s.references && rr.id == reactionId
    ensures r.Ok? ==> r.value in s.references && r.value.id == reactionId
    ensures r.Err? ==> r.error == ReactionNotFound
  {
    match FindReference(s, reactionId)
    case None => Err(ReactionNotFound)
    case Some(rr) => Ok(rr)
  }

  /** `getReactions`: the whole catalogue, unfiltered, one entry per row. */
  function GetReactions(s: Store): (r: seq<ReactionReference>)
    ensures |r| == |s.references|
    ensures forall rr :: rr in r <==> rr in s.references
  {
    s.references
  }

  /** The list `getReactions` returns and the lookup `getReaction` performs
      agree: every listed entry is found by its id, and every successful lookup
      returns a listed entry. */
  lemma CatalogueAndLookupAgree(s: Store, reactionId: Id)
    ensures forall rr :: rr in GetReactions(s) ==> GetReaction(s, rr.id).Ok?
    ensures GetReaction(s, reactionId).Ok? <==> exists rr :: rr in GetReactions(s) && rr.id == reactionId
    ensures GetReaction(s, reactionId).Ok? ==> GetReaction(s, reactionId).value in GetReactions(s)
  {
  }

  /** `createCommentReaction`: the reaction kind is looked up first (a missing
      one throws NotFound); the insert then connects user, comment and kind, and
      a `connect` to a missing user or comment throws out of Prisma. */
  function CreateCommentReaction(s: Store, commentId: Id, userId: Id, reactionId: Id): (r: Reply<CommentReaction>)
    ensures (forall rr :: rr in s.references ==> rr.id != reactionId) ==>
              r.Rejected(NotFound, s) && r.result.error == ReactionNotFound
    ensures r.result.Ok? <==>
              && (exists rr :: rr in s.references && rr.id == reactionId)
              && (exists u :: u in s.users && u.id == userId)
              && (exists c :: c in s.comments && c.id == commentId)
    ensures r.result.Ok? ==>
              && r.result.value == CommentReaction(userId, commentId, reactionId)
              && r.store == s.(commentReactions := s.commentReactions + [r.result.value])
    ensures r.result.Err? ==> r.store == s
  {
    match GetReaction(s, reactionId)
    case Err(e) => Reply(Err(e), s)
    case Ok(rr) =>
      if FindUser(s, userId).None? || FindComment(s, commentId).None? then
        Reply(Err(InternalServerError), s)
      else
        var row := CommentReaction(userId, commentId, rr.id);
        Reply(Ok(row), s.(commentReactions := s.commentReactions + [row]))
  }

  /** `createPostReaction`: the same guard and single insert, on a post. */
  function CreatePostReaction(s: Store, postId: Id, userId: Id, reactionId: Id): (r: Reply<PostReaction>)
    ensures (forall rr :: rr in s.references ==> rr.id != reactionId) ==>
              r.Rejected(NotFound, s) && r.result.error == ReactionNotFound
    ensures r.result.Ok? <==>
              && (exists rr :: rr in s.references && rr.id == reactionId)
              && (exists u :: u in s.users && u.id == userId)
              && (exists p :: p in s.posts && p.id == postId)
    ensures r.result.Ok? ==>
              && r.result.value == PostReaction(userId, postId, reactionId)
              && r.store == s.(postReactions := s.postReactions + [r.result.value])
    ensures r.result.Err? ==> r.store == s
  {
    match GetReaction(s, reactionId)
    case Err(e) => Reply(Err(e), s)
    case Ok(rr) =>
      if FindUser(s, userId).None? || FindPost(s, postId).None? then
        Reply(Err(InternalServerError), s)
      else
        var row := PostReaction(userId, postId, rr.id);
        Reply(Ok(row), s.(postReactions := s.postReactions + [row]))
  }

  /** No uniqueness is enforced: reacting twice with the same user, comment and
      kind succeeds twice and leaves two identical rows. */
  lemma {:induction false} RepeatedCommentReactionAppends(s: Store, commentId: Id, userId: Id, reactionId: Id)
    requires CreateCommentReaction(s, commentId, userId, reactionId).result.Ok?
    ensures var s1 := CreateCommentReaction(s, commentId, userId, reactionId).store;
            var r2 := CreateCommentReaction(s1, commentId, userId, reactionId);
            && r2.result.Ok?
            && r2.store.commentReactions == s.commentReactions + [r2.result.value, r2.result.value]
  {
    var s1 := CreateCommentReaction(s, commentId, userId, reactionId).store;
    assert s1.references == s.references && s1.users == s.users && s1.comments == s.comments;
  }

  /** The same for reactions to posts. */
  lemma {:induction false} RepeatedPostReactionAppends(s: Store, postId: Id, userId: Id, reactionId: Id)
    requires CreatePostReaction(s, postId, userId, reactionId).result.Ok?
    ensures var s1 := CreatePostReaction(s, postId, userId, reactionId).store;
            var r2 := CreatePostReaction(s1, postId, userId, reactionId);
            && r2.result.Ok?
            && r2.store.postReactions == s.postReactions + [r2.result.value, r2.result.value]
  {
    var s1 := CreatePostReaction(s, postId, userId, reactionId).store;
    assert s1.references == s.references && s1.users == s.users && s1.posts == s.posts;
  }

  /** Reaction inserts touch only reaction tables, so they keep the store valid. */
  lemma CreateCommentReactionPreservesValid(s: Store, commentId: Id, userId: Id, reactionId: Id)
    requires Valid(s)
    ensures Valid(CreateCommentReaction(s, commentId, userId, reactionId).store)
  {
  }

  lemma CreatePostReactionPreservesValid(s: Store, postId: Id, userId: Id, reactionId: Id)
    requires Valid(s)
    ensures Valid(CreatePostReaction(s, postId, userId, reactionId).store)
  {
  }
}

=== FILE: seed.dfy ===
/** The start-up seed of the reaction catalogue: four upserts by name whose
    update clause is empty. */
module Seed {
  import opened Tables
  import opened Store

  /** The kinds the seed guarantees, in the order it upserts them. */
  const Kinds: seq<string> := ["like", "dislike", "love", "sad"]

  /** The catalogue entries carrying this name. */
  function EntriesNamed(s: Store, name: string): seq<ReactionReference> {
    Filter(s.references, (rr: ReactionReference) => rr.name == name)
  }

  predicate Named(s: Store, name: string) {
    exists rr :: rr in s.references && rr.name == name
  }

  /** `upsert({ where: { name }, update: {}, create: { name } })`: an entry
      with the name is left exactly as it is; otherwise one is created. */
  function Upsert(s: Store, name: string): (r: Store)
    ensures Named(r, name)
    ensures forall n :: Named(s, n) ==> Named(r, n)
    ensures s.references <= r.references
    ensures Named(s, name) ==> r == s
    ensures r == s.(references := r.references, nextId := r.nextId) && s.nextId <= r.nextId
    ensures !Named(s, name) ==>
              r == s.(references := s.references + [ReactionReference(s.nextId, name)], nextId := s.nextId + 1)
  {
    if FindFirst(s.references, (rr: ReactionReference) => rr.name == name).Some? then s
    else s.(references := s.references + [ReactionReference(s.nextId, name)], nextId := s.nextId + 1)
  }

  /** `seedReactionReferences`. */
  function SeedReactionReferences(s: Store): (r: Store)
    ensures forall k :: k in Kinds ==> Named(r, k)
    ensures s.references <= r.references
    ensures r == s.(references := r.references, nextId := r.nextId)
  {
    UpsertChain(s);
    KindsListed();
    Upsert(Upsert(Upsert(Upsert(s, "like"), "dislike"), "love"), "sad")
  }

  /** The four upserts in turn name every kind, extend the catalogue and
      touch nothing else. */
  lemma UpsertChain(s: Store)
    ensures var r := Upsert(Upsert(Upsert(Upsert(s, "like"), "dislike"), "love"), "sad");
            && Named(r, "like") && Named(r, "dislike") && Named(r, "love") && Named(r, "sad")
            && s.references <= r.references
            && r == s.(references := r.references, nextId := r.nextId)
  {
    var s1 := Upsert(s, "like");
    var s2 := Upsert(s1, "dislike");
    assert Named(s2, "like");
    var s3 := Upsert(s2, "love");
    assert Named(s3, "like") && Named(s3, "dislike");
    var s4 := Upsert(s3, "sad");
    assert Named(s4, "like") && Named(s4, "dislike") && Named(s4, "love");
    assert s.references <= s2.references <= s4.references;
  }

  /** The seeded kinds, one by one. */
  lemma KindsListed()
    ensures forall k :: k in Kinds <==> k == "like" || k == "dislike" || k == "love" || k == "sad"
  {
  }

  /** Per name, an upsert adds an entry only when none carries the name. */
  lemma {:induction false} UpsertEntries(s: Store, name: string, n: string)
    ensures EntriesNamed(Upsert(s, name), n)
              == if n == name && !Named(s, name)
                 then [ReactionReference(s.nextId, name)]
                 else EntriesNamed(s, n)
  {
    if !Named(s, name) {
      var entry := ReactionReference(s.nextId, name);
      FilterConcat(s.references, [entry], (rr: ReactionReference) => rr.name == n);
    }
  }

  /** A name is present exactly when some entry carries it. */
  lemma NamedIffEntries(s: Store, n: string)
    ensures Named(s, n) <==> EntriesNamed(s, n) != []
  {
  }

  /** Seeding never touches entries of other names, never duplicates or alters
      an existing name's entries, and creates exactly one entry for each kind
      that was missing. */
  lemma {:induction false} SeedEntries(s: Store, n: string)
    ensures Named(s, n) ==> EntriesNamed(SeedReactionReferences(s), n) == EntriesNamed(s, n)
    ensures n !in Kinds ==> EntriesNamed(SeedReactionReferences(s), n) == EntriesNamed(s, n)
    ensures n in Kinds && !Named(s, n) ==> |EntriesNamed(SeedReactionReferences(s), n)| == 1
  {
    var s1 := Upsert(s, "like");
    var s2 := Upsert(s1, "dislike");
    var s3 := Upsert(s2, "love");
    UpsertEntries(s, "like", n);
    UpsertEntries(s1, "dislike", n);
    UpsertEntries(s2, "love", n);
    UpsertEntries(s3, "sad", n);
    NamedIffEntries(s, n);
    NamedIffEntries(s1, n);
    NamedIffEntries(s2, n);
    NamedIffEntries(s3, n);
  }

  /** Seeding twice yields the same store as seeding once. */
  lemma SeedIdempotent(s: Store)
    ensures SeedReactionReferences(SeedReactionReferences(s)) == SeedReactionReferences(s)
  {
    var t := SeedReactionReferences(s);
    assert Named(t, "like") && Named(t, "dislike") && Named(t, "love") && Named(t, "sad");
  }

  lemma UpsertPreservesValid(s: Store, name: string)
    requires Valid(s)
    ensures Valid(Upsert(s, name))
  {
    var t := Upsert(s, name);
    AccountsValidGrows(s.users, s.settings, s.auths, s.nextId, t.nextId);
    PostsValidGrows(s.posts, s.reactables, s.nextId, t.nextId);
    CommentsValidGrows(s.comments, s.nextId, t.nextId);
  }

  lemma SeedPreservesValid(s: Store)
    requires Valid(s)
    ensures Valid(SeedReactionReferences(s))
  {
    var s1 := Upsert(s, "like");
    var s2 := Upsert(s1, "dislike");
    var s3 := Upsert(s2, "love");
    UpsertPreservesValid(s, "like");
    UpsertPreservesValid(s1, "dislike");
    UpsertPreservesValid(s2, "love");
    UpsertPreservesValid(s3, "sad");
  }
}

=== FILE: store.dfy ===
/** The database the services talk to through Prisma, as an immutable value.

    Every table is the sequence of its rows in storage order. Row ids are the
    ones the database generates; the model draws them from one counter,
    `nextId`, that every insert advances. A service call is a function from a
    store (and its arguments) to a `Reply`: the result the caller sees and the
    store after the call.
 */
module Store {
  import opened Errors
  import opened Tables

  type Id = nat

  /** Discriminator of the polymorphic reactable key. */
  datatype ResourceType = PostResource | CommentResource

  datatype User = User(id: Id, email: string, username: string, name: string)

  datatype UserSettings = UserSettings(userId: Id, showEmail: bool, showName: bool)

  /** Credentials; `password` holds the hash, never the password itself. */
  datatype UserAuth = UserAuth(userId: Id, email: string, username: string, password: string, isVerified: bool)

  /** `isLive == false` is a draft. */
  datatype Post = Post(id: Id, title: string, content: string, authorId: Id, isLive: bool, resourceType: ResourceType)

  datatype Comment = Comment(id: Id, content: string, postId: Id, authorId: Id, isLive: bool)

  /** The association row a reaction to a post attaches to. */
  datatype Reactable = Reactable(resourceId: Id, resourceType: ResourceType)

  /** An entry of the reaction catalogue (like, dislike, ...). */
  datatype ReactionReference = ReactionReference(id: Id, name: string)

  /** A reaction through the reactable association. */
  datatype Reaction = Reaction(userId: Id, resourceId: Id, resourceType: ResourceType, reactionTypeId: Id)

  /** A reaction through the direct comment foreign key. */
  datatype CommentReaction = CommentReaction(userId: Id, commentId: Id, reactionId: Id)

  /** A reaction through the direct post foreign key. */
  datatype PostReaction = PostReaction(userId: Id, postId: Id, reactionId: Id)

  datatype Store = Store(
    users: seq<User>,
    settings: seq<UserSettings>,
    auths: seq<UserAuth>,
    posts: seq<Post>,
    comments: seq<Comment>,
    reactables: seq<Reactable>,
    references: seq<ReactionReference>,
    reactions: seq<Reaction>,
    commentReactions: seq<CommentReaction>,
    postReactions: seq<PostReaction>,
    blacklist: seq<string>,
    nextId: Id)

  /** What a writing service call returns: its result and the store after it. */
  datatype Reply<+T> = Reply(result: Result<T>, store: Store) {

    /** The call failed with kind `k` and wrote nothing to `s`. */
    predicate Rejected(k: Kind, s: Store) {
      result.FailedWith(k) && store == s
    }
  }

  function FindUser(s: Store, id: Id): (r: Option<User>)
    ensures r.Some? <==> exists u :: u in s.users && u.id == id
    ensures r.Some? ==> r.value in s.users && r.value.id == id
  {
    FindFirst(s.users, (u: User) => u.id == id)
  }

  function FindSettings(s: Store, userId: Id): (r: Option<UserSettings>)
    ensures r.Some? <==> exists st :: st in s.settings && st.userId == userId
    ensures r.Some? ==> r.value in s.settings && r.value.userId == userId
  {
    FindFirst(s.settings, (st: UserSettings) => st.userId == userId)
  }

  function FindPost(s: Store, id: Id): (r: Option<Post>)
    ensures r.Some? <==> exists p :: p in s.posts && p.id == id
    ensures r.Some? ==> r.value in s.posts && r.value.id == id
  {
    FindFirst(s.posts, (p: Post) => p.id == id)
  }

  function FindComment(s: Store, id: Id): (r: Option<Comment>)
    ensures r.Some? <==> exists c :: c in s.comments && c.id == id
    ensures r.Some? ==> r.value in s.comments && r.value.id == id
  {
    FindFirst(s.comments, (c: Comment) => c.id == id)
  }

  function FindReference(s: Store, id: Id): (r: Option<ReactionReference>)
    ensures r.Some? <==> exists rr :: rr in s.references && rr.id == id
    ensures r.Some? ==> r.value in s.references && r.value.id == id
  {
    FindFirst(s.references, (rr: ReactionReference) => rr.id == id)
  }

  /** The reactable row a post's `reactable` relation resolves to. */
  function FindReactable(s: Store, p: Post): (r: Option<Reactable>)
    ensures r.Some? <==> Reactable(p.id, p.resourceType) in s.reactables
    ensures r.Some? ==> r.value == Reactable(p.id, p.resourceType)
  {
    FindFirst(s.reactables, (ra: Reactable) => ra.resourceId == p.id && ra.resourceType == p.resourceType)
  }

  // ---- The consistency the database keeps, table group by table group. ----
  // Each group states that its generated ids are below the counter `n`, so the
  // next insert's id is fresh, that no row is stored twice, and that two rows
  // sharing a key are equal. Together the last two make every key unique by
  // position (`KeysUnique`).

  /** Users, their settings and their credentials. Settings and credentials
      have one row per user; credentials are also looked up by email and by
      username, so each of those is unique too; and credentials are created
      with their user and copy its email and username. */
  ghost predicate AccountsValid(users: seq<User>, settings: seq<UserSettings>, auths: seq<UserAuth>, n: Id) {
    && (forall u :: u in users ==> u.id < n)
    && (forall st :: st in settings ==> st.userId < n)
    && (forall a :: a in auths ==> a.userId < n)
    && Distinct(users) && Distinct(settings) && Distinct(auths)
    && (forall u, v :: u in users && v in users && u.id == v.id ==> u == v)
    && (forall st, sv :: st in settings && sv in settings && st.userId == sv.userId ==> st == sv)
    && (forall a, b :: a in auths && b in auths && a.userId == b.userId ==> a == b)
    && (forall a, b :: a in auths && b in auths && a.email == b.email ==> a == b)
    && (forall a, b :: a in auths && b in auths && a.username == b.username ==> a == b)
    && (forall a :: a in auths ==>
          exists u :: u in users && u.id == a.userId && u.email == a.email && u.username == a.username)
  }

  /** Posts and their reactables. A reactable row is its own key
      `(resourceId, resourceType)`, so that key is unique because no row occurs
      twice; every post was created together with its reactable. */
  ghost predicate PostsValid(posts: seq<Post>, reactables: seq<Reactable>, n: Id) {
    && (forall p :: p in posts ==> p.id < n)
    && (forall ra :: ra in reactables ==> ra.resourceId < n)
    && Distinct(posts) && Distinct(reactables)
    && (forall p, q :: p in posts && q in posts && p.id == q.id ==> p == q)
    && (forall p :: p in posts ==> Reactable(p.id, p.resourceType) in reactables)
  }

  /** Unique comment ids. */
  ghost predicate UniqueCommentIds(comments: seq<Comment>) {
    forall c, d :: c in comments && d in comments && c.id == d.id ==> c == d
  }

  ghost predicate CommentsValid(comments: seq<Comment>, n: Id) {
    && (forall c :: c in comments ==> c.id < n)
    && Distinct(comments)
    && UniqueCommentIds(comments)
  }

  /** The reaction catalogue. */
  ghost predicate CatalogueValid(references: seq<ReactionReference>, n: Id) {
    && (forall rr :: rr in references ==> rr.id < n)
    && Distinct(references)
    && (forall a, b :: a in references && b in references && a.id == b.id ==> a == b)
  }

  /** The consistency every service call keeps. */
  ghost predicate Valid(s: Store) {
    && AccountsValid(s.users, s.settings, s.auths, s.nextId)
    && PostsValid(s.posts, s.reactables, s.nextId)
    && CommentsValid(s.comments, s.nextId)
    && CatalogueValid(s.references, s.nextId)
  }

  /** In a consistent store every key, read by position, picks out one row:
      what `findUnique` on a primary or unique key relies on. */
  lemma KeysUnique(s: Store)
    requires Valid(s)
    ensures forall i, j :: 0 <= i < j < |s.users| ==> s.users[i].id != s.users[j].id
    ensures forall i, j :: 0 <= i < j < |s.settings| ==> s.settings[i].userId != s.settings[j].userId
    ensures forall i, j :: 0 <= i < j < |s.auths| ==>
              && s.auths[i].userId != s.auths[j].userId
              && s.auths[i].email != s.auths[j].email
              && s.auths[i].username != s.auths[j].username
    ensures forall i, j :: 0 <= i < j < |s.posts| ==> s.posts[i].id != s.posts[j].id
    ensures forall i, j :: 0 <= i < j < |s.comments| ==> s.comments[i].id != s.comments[j].id
    ensures forall i, j :: 0 <= i < j < |s.references| ==> s.references[i].id != s.references[j].id
  {
    forall i, j | 0 <= i < j < |s.users|
      ensures s.users[i].id != s.users[j].id
    {
      assert s.users[i] in s.users && s.users[j] in s.users;
    }
    forall i, j | 0 <= i < j < |s.settings|
      ensures s.settings[i].userId != s.settings[j].userId
    {
      assert s.settings[i] in s.settings && s.settings[j] in s.settings;
    }
    forall i, j | 0 <= i < j < |s.auths|
      ensures s.auths[i].userId != s.auths[j].userId
      ensures s.auths[i].email != s.auths[j].email
      ensures s.auths[i].username != s.auths[j].username
    {
      assert s.auths[i] in s.auths && s.auths[j] in s.auths;
    }
    forall i, j | 0 <= i < j < |s.posts|
      ensures s.posts[i].id != s.posts[j].id
    {
      assert s.posts[i] in s.posts && s.posts[j] in s.posts;
    }
    forall i, j | 0 <= i < j < |s.comments|
      ensures s.comments[i].id != s.comments[j].id
    {
      assert s.comments[i] in s.comments && s.comments[j] in s.comments;
    }
    forall i, j | 0 <= i < j < |s.references|
      ensures s.references[i].id != s.references[j].id
    {
      assert s.references[i] in s.references && s.references[j] in s.references;
    }
  }

  // Replacing one table by a table that keeps its group valid keeps the
  // store valid.

  lemma ValidWithComments(s: Store, cs: seq<Comment>)
    requires Valid(s) && CommentsValid(cs, s.nextId)
    ensures Valid(s.(comments := cs))
  {
  }

  lemma ValidWithPosts(s: Store, ps: seq<Post>)
    requires Valid(s) && PostsValid(ps, s.reactables, s.nextId)
    ensures Valid(s.(posts := ps))
  {
  }

  lemma ValidWithAuths(s: Store, rows: seq<UserAuth>)
    requires Valid(s) && AccountsValid(s.users, s.settings, rows, s.nextId)
    ensures Valid(s.(auths := rows))
  {
  }

  lemma ValidWithSettings(s: Store, rows: seq<UserSettings>)
    requires Valid(s) && AccountsValid(s.users, rows, s.auths, s.nextId)
    ensures Valid(s.(settings := rows))
  {
  }

  // A group stays valid when the counter moves on.

  lemma AccountsValidGrows(users: seq<User>, settings: seq<UserSettings>, auths: seq<UserAuth>, n: Id, m: Id)
    requires AccountsValid(users, settings, auths, n) && n <= m
    ensures AccountsValid(users, settings, auths, m)
  {
  }

  lemma PostsValidGrows(posts: seq<Post>, reactables: seq<Reactable>, n: Id, m: Id)
    requires PostsValid(posts, reactables, n) && n <= m
    ensures PostsValid(posts, reactables, m)
  {
  }

  lemma CommentsValidGrows(comments: seq<Comment>, n: Id, m: Id)
    requires CommentsValid(comments, n) && n <= m
    ensures CommentsValid(comments, m)
  {
  }

  lemma CatalogueValidGrows(references: seq<ReactionReference>, n: Id, m: Id)
    requires CatalogueValid(references, n) && n <= m
    ensures CatalogueValid(references, m)
  {
  }
}

=== FILE: tables.dfy ===
/** The four query shapes the services issue against a table, over a table
    modelled as the sequence of its rows in storage order:
    `findUnique`/`findFirst` (first row matching), `findMany` (every row
    matching, in order), `deleteMany` (remove every row matching, report the
    count) and `update` (rewrite the rows matching).
 */
module Tables {
  import opened Errors

  /** The position of the first row satisfying `p`, or `None` when no row does. */
  function FirstIndex<T>(rows: seq<T>, p: T -> bool): (r: Option<nat>)
    ensures r.None? <==> forall i :: 0 <= i < |rows| ==> !p(rows[i])
    ensures r.Some? ==> r.value < |rows| && p(rows[r.value]) && NoneBefore(rows, p, r.value)
  {
    if |rows| == 0 then None
    else if p(rows[0]) then Some(0)
    else
      match FirstIndex(rows[1..], p)
      case None => None
      case Some(i) => Some(i + 1)
  }

  /** The first row satisfying `p`: what `findUnique` and `findFirst` return. */
  function FindFirst<T>(rows: seq<T>, p: T -> bool): (r: Option<T>)
    ensures r.None? <==> forall i :: 0 <= i < |rows| ==> !p(rows[i])
    ensures r.Some? ==> p(r.value) && r.value in rows
  {
    match FirstIndex(rows, p)
    case None => None
    case Some(i) => Some(rows[i])
  }

  /** No row strictly before index `i` satisfies `p`. */
  predicate NoneBefore<T>(rows: seq<T>, p: T -> bool, i: nat)
    requires i <= |rows|
  {
    forall j :: 0 <= j < i ==> !p(rows[j])
  }

  /** The rows satisfying `p`, in storage order. */
  function Filter<T(==,!new)>(rows: seq<T>, p: T -> bool): (r: seq<T>)
    ensures |r| <= |rows|
    ensures forall x :: x in r <==> x in rows && p(x)
    ensures |r| == |rows| <==> forall i :: 0 <= i < |rows| ==> p(rows[i])
    ensures r == [] <==> forall i :: 0 <= i < |rows| ==> !p(rows[i])
  {
    if |rows| == 0 then []
    else
      var rest := Filter(rows[1..], p);
      assert forall i :: 1 <= i < |rows| ==> rows[i] == rows[1..][i - 1];
      assert forall x :: x in rows <==> x == rows[0] || x in rows[1..];
      if p(rows[0]) then [rows[0]] + rest else rest
  }

  /** The filter keeps every matching row as often as it occurs and drops
      every other row: no row is listed twice that is stored once. */
  lemma {:induction false} FilterCounts<T(!new)>(rows: seq<T>, p: T -> bool)
    ensures forall x :: multiset(Filter(rows, p))[x] == if p(x) then multiset(rows)[x] else 0
  {
    if |rows| > 0 {
      FilterCounts(rows[1..], p);
      assert rows == [rows[0]] + rows[1..];
      assert multiset(rows) == multiset([rows[0]]) + multiset(rows[1..]);
    }
  }

  /** No row occurs twice in the table. */
  ghost predicate Distinct<T>(rows: seq<T>) {
    forall i, j :: 0 <= i < j < |rows| ==> rows[i] != rows[j]
  }

  /** Appending a row the table does not hold keeps its rows distinct. */
  lemma DistinctAppend<T>(rows: seq<T>, x: T)
    requires Distinct(rows) && x !in rows
    ensures Distinct(rows + [x])
  {
  }

  /** Filtering a table of distinct rows lists each kept row once. */
  lemma {:induction false} FilterKeepsDistinct<T(!new)>(rows: seq<T>, p: T -> bool)
    requires Distinct(rows)
    ensures Distinct(Filter(rows, p))
  {
    if |rows| > 0 {
      var rest := Filter(rows[1..], p);
      FilterKeepsDistinct(rows[1..], p);
      if p(rows[0]) {
        assert rows[0] !in rows[1..] by {
          forall j | 0 <= j < |rows[1..]|
            ensures rows[1..][j] != rows[0]
          {
            assert rows[1..][j] == rows[j + 1];
          }
        }
        var r := [rows[0]] + rest;
        forall i, j | 0 <= i < j < |r|
          ensures r[i] != r[j]
        {
          if i == 0 {
            assert r[j] == rest[j - 1] && rest[j - 1] in rest;
          } else {
            assert r[i] == rest[i - 1] && r[j] == rest[j - 1];
          }
        }
      }
    }
  }

  /** Every row satisfying `p` rewritten by `f`; the other rows as they were. */
  function UpdateWhere<T>(rows: seq<T>, p: T -> bool, f: T -> T): (r: seq<T>)
    ensures |r| == |rows|
    ensures forall i :: 0 <= i < |rows| ==> r[i] == if p(rows[i]) then f(rows[i]) else rows[i]
  {
    seq(|rows|, i requires 0 <= i < |rows| => if p(rows[i]) then f(rows[i]) else rows[i])
  }

  /** Rewriting the matching rows by an `f` that keeps them matching does not
      move the first match, and the first match of the result is the rewritten
      first match of the original: what `update` returns is what a later
      `findUnique` reads. */
  lemma {:induction false} FindFirstAfterUpdate<T>(rows: seq<T>, p: T -> bool, f: T -> T)
    requires forall x :: p(x) ==> p(f(x))
    ensures FindFirst(rows, p).Some? ==> FindFirst(UpdateWhere(rows, p, f), p) == Some(f(FindFirst(rows, p).value))
    ensures FindFirst(rows, p).None? ==> FindFirst(UpdateWhere(rows, p, f), p).None?
  {
    var u := UpdateWhere(rows, p, f);
    if |rows| > 0 {
      assert u[1..] == UpdateWhere(rows[1..], p, f);
      FindFirstAfterUpdate(rows[1..], p, f);
    }
  }

  /** Appending a matching row behind rows that do not match makes that row
      the first match. */
  lemma {:induction false} FindFirstAppended<T>(rows: seq<T>, p: T -> bool, x: T)
    requires forall i :: 0 <= i < |rows| ==> !p(rows[i])
    requires p(x)
    ensures FindFirst(rows + [x], p) == Some(x)
  {
    FirstIndexAppended(rows, p, x);
  }

  lemma {:induction false} FirstIndexAppended<T>(rows: seq<T>, p: T -> bool, x: T)
    requires forall i :: 0 <= i < |rows| ==> !p(rows[i])
    requires p(x)
    ensures FirstIndex(rows + [x], p) == Some(|rows|)
    decreases |rows|
  {
    if |rows| > 0 {
      assert (rows + [x])[1..] == rows[1..] + [x];
      FirstIndexAppended(rows[1..], p, x);
    }
  }

  /** Appending a row does not move an existing first match. */
  lemma {:induction false} FindFirstKeptByAppend<T>(rows: seq<T>, p: T -> bool, x: T)
    requires FindFirst(rows, p).Some?
    ensures FindFirst(rows + [x], p) == FindFirst(rows, p)
  {
    FirstIndexKeptByAppend(rows, p, x);
  }

  lemma {:induction false} FirstIndexKeptByAppend<T>(rows: seq<T>, p: T -> bool, x: T)
    requires FirstIndex(rows, p).Some?
    ensures FirstIndex(rows + [x], p) == FirstIndex(rows, p)
    decreases |rows|
  {
    if !p(rows[0]) {
      assert (rows + [x])[1..] == rows[1..] + [x];
      FirstIndexKeptByAppend(rows[1..], p, x);
    }
  }

  /** Filtering distributes over concatenation. */
  lemma {:induction false} FilterConcat<T(!new)>(a: seq<T>, b: seq<T>, p: T -> bool)
    ensures Filter(a + b, p) == Filter(a, p) + Filter(b, p)
    decreases |a|
  {
    if |a| > 0 {
      assert (a + b)[1..] == a[1..] + b;
      FilterConcat(a[1..], b, p);
    } else {
      assert a + b == b;
    }
  }
}
